=== FILE: README.md ===
# Monopoly game draft and AI-agent runner, modelled in Dafny

This project models the deterministic core of a Python Monopoly project in
which language-model agents play against each other. It has two layers.

The first layer is the board draft in `src/`:
- the game state;
- player registration;
- dice-sum movement that wraps at tile 40;
- tile generation;
- a player purse and a bank balance with unchecked arithmetic;
- the street tile record with its owner, house and hotel counters;
- the two constant 16-card decks (Chance and Community Chest).

The second layer is the client side of the AI game:
- the fallback policy an agent uses when its model call fails;
- the action lists an agent answers without calling the model;
- the code-fence slicing applied to a model reply before JSON parsing;
- the human agent's parameter prompts;
- the agent factory;
- the runner's action-name cleanup;
- the twelve-entry action dispatch table;
- the per-turn action counter;
- the winner rule and the final standings order.

Dice values, console entries and the model's reply are parameters. So is
the result of JSON parsing: a reply is reduced to "parsed to this decision"
or "did not parse".

Modules, one per source file or concern:

| file | module | models |
|---|---|---|
| outcomes.dfy | `Outcomes` | `Option`, and `Result` carrying the Python exception a call raises |
| text.dfy | `Text` | the Python `str` operations used: `isspace`, `strip`, `in`, `find`, `split(sep)[0]` and `[1]`, `split()[0]`, `replace` |
| player.dfy | `Players` | src/Player.py |
| bank.dfy | `Banking` | src/Bank.py |
| tiles.dfy | `Tiles` | src/Tiles.py (`Land`) |
| game.dfy | `Game` | src/game.py (`GameState`) |
| cards.dfy | `Cards` | src/data/chance_cards_data.py and src/data/community_chest_data.py |
| agents.dfy | `Agents` | the decision rules of ai_agents.py |
| runner.dfy | `Runner` | action cleanup, dispatch and the action counter of game_runner.py |
| standings.dfy | `Standings` | winner and final standings of game_runner.py |

## Model

| member | source | states |
|---|---|---|
| Text.Strip | ai_agents.py:91 | `strip()` leaves no whitespace at either end, keeps only characters of its input, and yields the empty string exactly for all-whitespace input |
| Text.StripPadded | ai_agents.py:99 | stripping recovers any core without surrounding whitespace from any whitespace padding |
| Text.StripIdempotent | ai_agents.py:91-99 | stripping twice is stripping once |
| Text.Find | ai_agents.py:94-97 | the first-occurrence search behind `in` and `split`: it returns the first occurrence, and none is missed when it reports absence |
| Text.Contains | ai_agents.py:94-96 | `pat in s`: some occurrence is found by the first-occurrence search |
| Text.Before | ai_agents.py:95 | `split(sep)[0]` is the prefix up to the first separator, the whole text when there is none |
| Text.Second | ai_agents.py:95-97 | `split(sep)[1]`: the text after the first separator up to the next one, a slice of the input that holds no separator |
| Text.BeforeLacksPattern | ai_agents.py:95-97 | the text before the first separator holds no separator |
| Text.ReplaceChar | game_runner.py:87 | `replace(" ", "_")` changes exactly the matching characters and keeps the length, so the replaced character no longer occurs and every other character comes from the input |
| Text.ReplaceAbsent | game_runner.py:87 | replacing an absent character is the identity |
| Text.FirstToken | ai_agents.py:283 | `split()[0]` is the first maximal run of non-whitespace, starting after the leading whitespace, and fails exactly on blank text |
| Text.ContainsChar | game_runner.py:91 | `"(" in s` holds exactly when the character occurs in `s` |
| Players.NewPlayer | src/Player.py:2-7 | a new player stores name and id, stands on tile 0 with an empty purse and the default avatar |
| Players.AddMoney | src/Player.py:9-10 | the purse grows by exactly the amount; nothing else changes |
| Players.SubtractMoney | src/Player.py:12-13 | the purse shrinks by exactly the amount with no floor, negative exactly when overdrawn |
| Players.UpdatePosition | src/Player.py:15-16 | any integer becomes the position; nothing else changes |
| Players.GetDetails | src/Player.py:21-28 | `get_player_details` reports name, id, position, money and avatar, from which the player is rebuilt |
| Players.Position | src/Player.py:18-19 | `get_player_position` reads the stored position and nothing else |
| Players.PositionRoundTrip | src/Player.py:15-19 | setting then reading the position returns the value set, purse untouched |
| Players.DetailsRoundTrip | src/Player.py:21-28 | the details report holds every stored field: the player is rebuilt from it |
| Players.AddThenSubtract | src/Player.py:9-13 | adding then subtracting the same amount restores the player, and the reverse |
| Banking.NewBank | src/Bank.py:2-3 | a new bank holds 200000 |
| Banking.Balance | src/Bank.py:11-12 | `get_bank_balance` reports the one stored balance, which determines the bank |
| Banking.PayIn | src/Bank.py:5-6 | the balance grows by exactly the amount |
| Banking.PayOut | src/Bank.py:8-9 | the balance shrinks by exactly the amount, negative exactly when overdrawn |
| Banking.PayInThenOut | src/Bank.py:5-9 | paying in then out the same amount restores the bank, and the reverse |
| Banking.TransfersConserveMoney | src/Bank.py:5-9 | a player paying the bank, or the bank paying a player, keeps purse plus balance constant |
| Tiles.NewLand | src/Tiles.py:2-23 | a new street sits at position id, is buyable, unowned, unbuilt, rent-free, and houses cost 50 |
| Tiles.UpdateOwner | src/Tiles.py:28-34 | ownership flag and owner are set, status true is reported, nothing else changes |
| Tiles.UpdateOwnerIdempotent | src/Tiles.py:28-34 | setting the same owner twice equals setting it once |
| Tiles.UpdateHotels | src/Tiles.py:55-56 | exactly one hotel more, nothing else changes |
| Tiles.HouseCount | src/Tiles.py:36-37 | `get_house_count` reads the number of houses from the building details |
| Tiles.UpdateHouses | src/Tiles.py:44-53 | at most 4 houses: the count grows by n uncapped and success is reported; above 4: houses unchanged, one more hotel, no report |
| Tiles.RepeatedHouseUpdates | src/Tiles.py:44-56 | from at most 4 houses (a negative count, which `update_houses` allows, included), k single-house updates give min(c+k, 5) houses and put the excess into hotels |
| Tiles.AboveFourBuildsHotels | src/Tiles.py:52-56 | above 4 houses every update adds one hotel and no house |
| Tiles.UpdateRentValue | src/Tiles.py:39-42 | rent becomes houses times price per house; a missing price key raises `KeyError` |
| Tiles.RentUpdateRaisesOnNewLand | src/Tiles.py:2-23 | no street built by the constructor holds the price key, so the rent update raises on it |
| Tiles.TilePropertiesRoundTrip | src/Tiles.py:58-76 | the properties report carries every stored field but the colour group, including an owner set by `update_owner` |
| Tiles.GetTileProperties | src/Tiles.py:58-76 | the properties report carries every stored field except the colour group, so the tile is rebuilt from it and that group |
| Game.NewGameState | src/game.py:11-17 | a new game has no players, turn 0, player count 0, status "INITILIZING", no tiles, no bank |
| Game.TotalMoneyAppend | src/game.py:43-44 | total player money is additive over appended players |
| Game.RegisterPlayers | src/game.py:35-44 | two players, "ChatGPT" id 1 and "Claude" id 2 with 1500 each, are appended after the existing ones; total money rises by 3000; nothing else changes |
| Game.MovePlayer | src/game.py:53-62 | from a board tile the new position is (position + dice) mod 40, again a board tile; only the position changes |
| Game.MoveCreditsNothing | src/game.py:53-64 | moving never pays a pass-Go salary and keeps name, id and purse; the position decreases exactly when the move wraps |
| Game.MovesCompose | src/game.py:53-62 | after any sequence of rolls the position is start plus the sum of all dice, mod 40 |
| Game.GenerateTilesAsWritten | src/game.py:75-77 | as written every call raises `AttributeError`, because the class table names the missing `Tiles.Railroad` |
| Game.TileClass | src/game.py:76-77 | the class table as intended: "street" builds a street tile and "railroad" a railroad tile with the given id, and no other type has a class |
| Game.GenerateTiles | src/game.py:75-95 | as intended (see Findings): an unknown type raises `ValueError` and leaves the tiles alone; otherwise one tile per id is appended in order after the existing ones |
| Game.StreetGenerationDiffers | src/game.py:75-87 | generating street tiles raises as written but appends one street tile per id as intended |
| Game.PopulateTiles | src/game.py:66-73 | as intended (see Findings): street tiles then railroad tiles are appended in order |
| Game.InitializeGame | src/game.py:46-51 | as intended (see Findings): street tiles then railroad tiles are appended in order, "ChatGPT" and "Claude" with 1500 each follow the existing players, and a 200000 bank is set up; from a new game players hold 3000 and the player count stays 0 |
| Game.GetStats | src/game.py:23-33 | without a bank the report raises `AttributeError`; otherwise it mirrors status, players, count, turn and balance |
| Game.StatsRoundTrip | src/game.py:23-33 | the report loses nothing but the tiles: any game with a bank is rebuilt from its report and its tiles |
| Game.NoStatsBeforeSetup | src/game.py:11-33 | a freshly constructed game has no bank yet, so asking for its report raises `AttributeError` |
| Game.StatsAfterSetup | src/game.py:23-51 | once `initialize_game` has put a fresh bank in place the report shows a balance of 200000 |
| Game.ManageTurnsAsWritten | src/game.py:103-106 | as written turn 0 raises `TypeError` from the class-level `Logger.log` call before any player is read; other turns change nothing |
| Game.ManageTurns | src/game.py:103-112 | as intended (see Findings): only at turn 0 is the first player moved; with no players it raises `IndexError`; other players are untouched |
| Game.ManageTurnsNeverMovesAsWritten | src/game.py:103-108 | with players at turn 0 the source raises where the intended turn moves the first player |
| Cards.ActionNamesDistinct | src/data/chance_cards_data.py:1-106 | the action vocabulary has no synonyms: equal names mean the same kind of action |
| Cards.ChanceDeckShape | src/data/chance_cards_data.py:1-106 | 16 cards with ids 0..15; exactly one jail-free card (8) and one go-to-jail card (10); every fixed destination is a board tile |
| Cards.ChanceDestinations | src/data/chance_cards_data.py:1-106 | exactly cards 0, 1, 2, 3, 13 have fixed destinations, namely 39, 0, 24, 11, 5 |
| Cards.ChanceNearestCards | src/data/chance_cards_data.py:29-49 | cards 4 and 5 move to the nearest railroad with rent times 2, card 6 to the nearest utility at ten times the dice, and no other card moves to the nearest tile |
| Cards.ChanceAmounts | src/data/chance_cards_data.py:50-105 | the only negative amount is the move back 3 on card 9; every collect or pay amount is positive (50, 150, 15, 50) |
| Cards.ChanceSalaryAndRepairs | src/data/chance_cards_data.py:8-93 | only card 1 collects a salary outright; cards 2, 3, 13 collect it when passing Go; general repairs on card 11 cost 25 and 100 |
| Cards.CommunityChestDeckShape | src/data/community_chest_data.py:1-99 | 16 cards with ids 0..15; one jail-free card (4), one go-to-jail card (5); no destinations; the only moves are advance to Go (200) and go to jail |
| Cards.CommunityChestAmounts | src/data/community_chest_data.py:8-99 | all pay and collect amounts are positive; pay cards are 2, 10, 11 with 50, 100, 50; birthday collects 10 from each player; street repairs cost 40 and 115 |
| Agents.FirstFiring | ai_agents.py:159-176 | the reference reading of a rule table: the first applicable rule, with none earlier applicable, or none at all |
| Agents.Fallback | ai_agents.py:159-176 | the fallback decision is always an offered action, or `end_turn` when nothing is offered, and has no parameters |
| Agents.FallbackFollowsPriority | ai_agents.py:163-176 | the chain of tests equals the priority table roll, buy (>200), decline, bail (>100), roll for doubles, end turn, then the first offered action |
| Agents.FallbackTakesFirstRule | ai_agents.py:163-174 | when a rule of the table applies, the fallback picks the action of the first rule that applies |
| Agents.FallbackWithoutRule | ai_agents.py:175-176 | when no rule applies, the fallback picks the first offered action, or `end_turn` when none is offered |
| Agents.FallbackMoneyRules | ai_agents.py:161-170 | rolling wins whenever offered; buying is chosen above 200 when offered and rolling is not; bail only when no higher rule applies; below the thresholds buy or bail is chosen only as the first offered action when no rule applies; a missing player counts as having 0 |
| Agents.ParsedDecision | ai_agents.py:101-112 | the parsed JSON wins, then the first flat object found in the text, then `end_turn` |
| Agents.ModelAgentDecide | ai_agents.py:123-157 | empty list or only `end_turn` gives `end_turn`, only rolling gives rolling, both without the model; otherwise another player without a `money` entry raises `KeyError` while the prompt is built, and else a failed call falls back and an answer is parsed |
| Agents.PromptReadable | ai_agents.py:59-61 | the prompt can be built: every player other than the agent has a `money` entry for `info['money']` |
| Agents.NoModelCallNeeded | ai_agents.py:123-135 | on the short-circuit lists, and when the prompt cannot be built, the reply does not matter; with a readable state a failed call still yields an offered action or `end_turn` |
| Agents.FenceBody | ai_agents.py:91-99 | the text handed to the JSON parser never holds a code fence |
| Agents.FenceInner | ai_agents.py:94-97 | slicing at a fence leaves no fence in the slice |
| Agents.JsonFenceRoundTrip | ai_agents.py:91-99 | a reply whose JSON sits in a "```json" fence yields exactly the stripped fenced text, when the text before the fence and the fenced text hold no backtick and the text after the closing fence does not start with one |
| Agents.UnfencedReply | ai_agents.py:91-99 | a reply without fences is parsed as its stripped self |
| Agents.FirstValidChoice | ai_agents.py:263-272 | the prompt loop stops at the first entry that is a number from 1 to the number of actions, skipping all earlier ones |
| Agents.ReadInt | ai_agents.py:277 | `int(input())` on the remaining entries: none left raises `EOFError`, a non-number raises `ValueError`, else the number |
| Agents.HumanParams | ai_agents.py:274-281 | "bid" reads the amount from the next entry and names the player; otherwise "auction" names the player; otherwise building, mortgage or property position reads the position from the next entry; a missing entry raises `EOFError` and a non-number `ValueError` |
| Agents.HumanDecide | ai_agents.py:250-283 | input running out before a valid choice raises `EOFError`; otherwise the action is the one the first valid choice picks, its parameters are read from the entries after that choice (an exception there propagates), and the action sent is that action's first word (`IndexError` if it has none) |
| Agents.CreateAgent | ai_agents.py:286-295 | the three known types build the matching agent under the name with the default model (and for Ollama host) unless overridden; a host given for "openai" raises `TypeError`, since its constructor takes none; any other type raises `ValueError` |
| Agents.CreateAgentRoundTrip | ai_agents.py:286-295 | every agent is rebuilt from its type name and settings |
| Runner.NormalizeAction | game_runner.py:87-92 | a cleaned action name holds no space and no "("; without "(" it is the name with spaces turned to underscores; with one, it is the stripped text before the first "(" of the name, with spaces turned to underscores |
| Runner.CutAtFirstParen | game_runner.py:87-92 | turning spaces into underscores and then cutting at the first "(" equals cutting the name there first |
| Runner.NormalizeIdempotent | game_runner.py:87-92 | cleaning twice is cleaning once |
| Runner.NormalizeFixedPoints | game_runner.py:87-92 | cleaning leaves a name alone exactly when it has no space and no "(" |
| Runner.AnnotatedName | game_runner.py:87-92 | a name followed by a space and a parenthesised note cleans up to the name plus "_" |
| Runner.AnnotatedActionUnknown | game_runner.py:87-165 | such an annotated action is always rejected as unknown, because no key ends in "_" |
| Runner.AnnotatedBuildHouse | game_runner.py:87-165 | "build_house (on positions: [1, 3])" becomes "build_house_" and is rejected as unknown |
| Runner.ExecuteAction | game_runner.py:146-165 | exactly the twelve table names make an engine call, the one they name; missing parameters default to "" and 0; any other name gives "Unknown action: " plus the name |
| Runner.DispatchRoundTrip | game_runner.py:148-161 | every engine call is reached by its own name with its own arguments |
| Runner.ActionNamesDistinct | game_runner.py:148-161 | the table has twelve distinct keys |
| Runner.HumanBidFeedsDispatch | game_runner.py:152 | the human agent's bid parameters make dispatch bid the typed amount in the player's name |
| Runner.HumanBidNeedsAmount | ai_agents.py:263-283 | a bid chosen at the last console entry raises `EOFError`; one more entry supplies the amount and the bid decision |
| Runner.HumanPassFeedsDispatch | game_runner.py:153 | the human agent's auction parameters make dispatch pass in the player's name |
| Runner.HumanBuildFeedsDispatch | game_runner.py:157 | the human agent's position reaches the house-building call |
| Runner.HumanMortgageFeedsDispatch | game_runner.py:158 | the human agent's position reaches the mortgage call |
| Runner.HumanUnmortgageFeedsDispatch | game_runner.py:159 | the human agent's position reaches the unmortgage call |
| Runner.CountAction | game_runner.py:107-119 | after each action the counter is at most 20; the turn is forced to end exactly when a non-ending action finds 20 already counted in a running game; the counter is 0 exactly after an end, a game over or a forced end |
| Runner.NextTurn | game_runner.py:77-79 | the turn number rises by one exactly when the phase is waiting for a roll or in jail and no action has been counted |
| Runner.TurnOpensAfterReset | game_runner.py:77-119 | after one counted action the next pass opens a turn exactly when the action was `end_turn`, the game ended or the turn was forced to end, and the phase is waiting for a roll or in jail; any other action leaves the turn number alone |
| Runner.NoNewTurnMidTurn | game_runner.py:77-119 | a run of up to 20 actions that do not end the turn never opens a new turn, whatever the phase |
| Runner.ForcedEndOpensTurn | game_runner.py:77-119 | after a turn forced to end by its 21st action, the next pass opens a new turn exactly in the phases waiting for a roll or in jail |
| Runner.CountRunUnforced | game_runner.py:107-119 | up to 20 non-ending actions are counted one by one and none forces an end |
| Runner.TwentyFirstActionForcesEnd | game_runner.py:107-119 | the 21st non-ending action of a turn forces its end and resets the counter |
| Standings.FirstMaxIndex | game_runner.py:134 | `max` returns the first player of greatest net worth |
| Standings.NetWorth | game_runner.py:134 | money plus 100 per property: never below the money, equal to it exactly without properties |
| Standings.ActiveIndices | game_runner.py:128 | the solvent players, in table order, and all of them |
| Standings.Winner | game_runner.py:128-135 | no players raises `ValueError`; a sole solvent player wins; otherwise the first player of greatest net worth wins, bankrupt or not |
| Standings.SortDescending | game_runner.py:207-211 | the standings list solvent players before bankrupt ones, then net worth highest first |
| Standings.Sort | game_runner.py:207-211 | `sorted(..., reverse=True)` as a stable insertion by the key (solvent, net worth); its properties are those of `Standings.SortDescending`, `Standings.SortPermutes` and `Standings.SortStable` |
| Standings.SortPermutes | game_runner.py:207-211 | the standings are a permutation of the players |
| Standings.SortStable | game_runner.py:207-211 | players with equal keys keep their table order |
| Standings.InsertWithKey | game_runner.py:207-211 | insertion puts a player after all players with its key |
| Standings.SurvivorHeadsStandings | game_runner.py:128-131 | a sole solvent player both wins and heads the standings |
| Standings.RichestHeadsStandings | game_runner.py:134 | under uniform bankrupt flags the first player of greatest net worth heads the standings |
| Standings.WinnerHeadsStandings | game_runner.py:128-135 | when all players are bankrupt or none is, the winner heads the standings |
| Standings.BankruptWinnerExample | game_runner.py:128-135 | with two solvent players and a richer bankrupt one, the bankrupt one wins by net worth |
| Standings.BankruptLeaderStandings | game_runner.py:207-211 | in the same table the standings list the bankrupt winner last |

## Left out

- The rules engine (`game_engine.py`, with rent, auctions, jail, bankruptcy and phase changes) is not part of this model. Dispatch stops at naming the engine call (`Runner.EngineCall`), and the phase and game-over flag are parameters.
- mcp_server.py is not modelled. It is protocol plumbing around a global game, and its dispatch repeats `execute_action`.
- src/Logger.py, every `print`, the banner and result printers, `time.sleep`, `argparse` and `main` are I/O only.
- The OpenAI and Ollama client calls are left out as foreign calls. Their outcome is the `Agents.ModelReply` parameter. Of the reads in `get_action_prompt` that can raise, only `info['money']` for another player (ai_agents.py:61) is modelled (`Agents.PromptReadable`), since it is the one a well-typed state can be missing. The other fields of a player entry are not modelled.
- `Agents.ModelAgentDecide`: the other raising reads of `get_action_prompt` are left out, because the model's state is typed and always has them in the expected shape. They are a missing `players` key (ai_agents.py:43), a property that is not a string passed to `join` (ai_agents.py:50), a `properties` value without a length (ai_agents.py:61), and a recent message that is not a string (ai_agents.py:67). Each raises out of `decide` in the source.
- `api_key` and other keyword arguments of `create_agent` besides `model` and `host` are not modelled.
- `json.loads` and the `re.search` for a flat `{...}` are left out as foreign calls. Their results are parameters of `Agents.ParsedDecision`.
- A parsed reply lacking "action" is not modelled. Decisions always carry an action string, so `decision.get("action", "")` is not exercised.
- Non-string JSON values are not modelled: parameters are typed as name, amount and position.
- `input()` is modelled as one sequence of entries, read by the choice loop and then by the amount or position prompt. `None` stands for text that `int()` rejects, and running out of entries stands for `EOFError`.
- The dice roller (`src.roll_dice`) is left out; dice values are parameters in 1..6.
- The constant tile-id lists (`src.constants`) are not part of this model. They are parameters of `Game.PopulateTiles`.
- `GameState.__init__` ignores its argument, so `Game.NewGameState` takes none. `no_of_players` is computed from the empty list and never updated; the model keeps it stale as the source does.
- `building_details` is built as a one-element tuple because of a trailing comma (src/Tiles.py:17-23), so every dictionary lookup on it would raise `TypeError`. The model gives it the dictionary shape the methods evidently expect.
- `generate_tiles` names the missing `Tiles.Railroad` (src/game.py:77), so as written it raises `AttributeError` on every call, and with it `populate_tiles` and `initialize_game`; `Game.GenerateTilesAsWritten` records this (see Findings). Past that, `Tiles.Land(id)` is called with one argument where the constructor needs four (src/game.py:87). The intended `Game.GenerateTiles`, used by the rest of the model, records which class would be built for each id (`Game.GeneratedTile`).
- `manage_turns` calls `Logger.log` on the class, not on the instance (src/game.py:106), so at turn 0 the source raises `TypeError` before it reads a player, and it never moves anyone. `Game.ManageTurnsAsWritten` records this; `Game.ManageTurns` moves the first player as evidently intended (see Findings).
- `Game.MovePlayer`: from a position off the board (the setter accepts any integer) the result is stated only as a position-only update, not reduced mod 40.
- `Tiles.Land.get_owner` and the unfinished `calculate_house_rent` are left out: a plain field read and an empty stub.
- `GameState.update_player_turn`, `get_players` and `run_tile_action` are left out as stubs or plain reads.
- `Agents.JsonFenceRoundTrip`: stated only for a prefix and fenced text without backticks and a rest that does not start with one; a backtick there can move the cut (for "```json{}````json" the parser gets "{}`").
- `Agents.FenceInner`: for the "```" branch (no "```json"), the model states only that no fence is left, not the exact slice.
- `print_all_players` sorts players by money for display; it is left out as display only.
- The `turn < max_turns` loop bound and the game loop itself are left out; the model covers one step of the counter and turn number, and runs of the counter.

## Findings

| source | as written | input that shows it | evidently intended | confidence | as-written member | corrected member |
|---|---|---|---|---|---|---|
| src/game.py:77 | the class table of `generate_tiles` names `Tiles.Railroad`, which src/Tiles.py does not define, so building the table raises `AttributeError` | any call, e.g. `generate_tiles([1, 3], "street")` | streets and railroads are appended, one tile per id | high, not executed | Game.GenerateTilesAsWritten, shown by Game.StreetGenerationDiffers | Game.GenerateTiles |
| src/game.py:106 | `Logger.log("Manage Turns", "Moving player 1")` is called on the class, so the message argument is missing and `TypeError` is raised | any state with `player_turn == 0` | the first player is moved by the dice and the move is logged | high, not executed | Game.ManageTurnsAsWritten, shown by Game.ManageTurnsNeverMovesAsWritten | Game.ManageTurns |

=== FILE: agents.dfy ===
/** The client-side decision rules of ai_agents.py: the fallback policy the
    model-backed agents use when the model call fails, the cases decided
    without any model call, the code-fence slicing applied to a model reply
    before JSON parsing, the human agent's parameter prompts, and the agent
    factory. The model call, JSON parsing, the regular-expression search and
    console input are parameters. */
module Agents {
  import opened Outcomes
  import opened Text

  /** The `params` dictionary of a decision, restricted to the three keys the
      game runner reads. */
  datatype Params = Params(playerName: Option<string>, amount: Option<int>, propertyPosition: Option<int>)

  const NoParams: Params := Params(None, None, None)

  /** A decision `{"action": ..., "params": ...}`. */
  datatype Decision = Decision(action: string, params: Params)

  const Roll: string := "roll_dice_and_move"
  const Buy: string := "buy_property"
  const Decline: string := "decline_purchase"
  const Bail: string := "pay_jail_bail"
  const RollDoubles: string := "roll_for_doubles"
  const EndTurn: string := "end_turn"

  /** A rule of the fallback policy: choose `action` when it is offered and,
      if there is a `minimum`, the player has more money than that. */
  datatype Rule = Rule(action: string, minimum: Option<int>)

  /** The fallback policy's rules, highest priority first. */
  const FallbackOrder: seq<Rule> := [
    Rule(Roll, None), Rule(Buy, Some(200)), Rule(Decline, None),
    Rule(Bail, Some(100)), Rule(RollDoubles, None), Rule(EndTurn, None)]

  /** `game_state["players"].get(name, {}).get("money", 0)`: each player's
      `money` entry, absent when the key is missing. */
  function MoneyOf(players: map<string, Option<int>>, name: string): int {
    if name in players then players[name].GetOr(0) else 0
  }

  /** Whether a rule of the fallback policy applies. */
  predicate Fires(rule: Rule, actions: seq<string>, money: int) {
    rule.action in actions && (rule.minimum.Some? ==> money > rule.minimum.value)
  }

  /** The reference reading of a rule table: the index of the first rule, in
      table order, that applies. */
  function FirstFiring(rules: seq<Rule>, actions: seq<string>, money: int): (r: Option<nat>)
    ensures r.Some? ==> r.value < |rules| && Fires(rules[r.value], actions, money)
    ensures r.Some? ==> forall j :: 0 <= j < r.value ==> !Fires(rules[j], actions, money)
    ensures r.None? <==> forall k :: 0 <= k < |rules| ==> !Fires(rules[k], actions, money)
  {
    if |rules| == 0 then None
    else if Fires(rules[0], actions, money) then Some(0)
    else match FirstFiring(rules[1..], actions, money)
      case None => None
      case Some(k) => Some(k + 1)
  }

  /** `_fallback_decision` (the same in the OpenAI and the Ollama agent),
      written as the source's chain of tests. No parameters are ever given. */
  function Fallback(players: map<string, Option<int>>, name: string, actions: seq<string>): (d: Decision)
    ensures d.params == NoParams
    ensures d.action in actions || (|actions| == 0 && d.action == EndTurn)
  {
    var money := MoneyOf(players, name);
    if Roll in actions then Decision(Roll, NoParams)
    else if Buy in actions && money > 200 then Decision(Buy, NoParams)
    else if Decline in actions then Decision(Decline, NoParams)
    else if Bail in actions && money > 100 then Decision(Bail, NoParams)
    else if RollDoubles in actions then Decision(RollDoubles, NoParams)
    else if EndTurn in actions then Decision(EndTurn, NoParams)
    else Decision(if |actions| > 0 then actions[0] else EndTurn, NoParams)
  }

  /** The entries of the rule table. */
  lemma RuleTable()
    ensures |FallbackOrder| == 6
    ensures FallbackOrder[0] == Rule(Roll, None) && FallbackOrder[1] == Rule(Buy, Some(200))
    ensures FallbackOrder[2] == Rule(Decline, None) && FallbackOrder[3] == Rule(Bail, Some(100))
    ensures FallbackOrder[4] == Rule(RollDoubles, None) && FallbackOrder[5] == Rule(EndTurn, None)
  {
  }

  /** When some rule fires, the chain of tests picks the first one's action. */
  lemma FallbackTakesFirstRule(players: map<string, Option<int>>, name: string, actions: seq<string>, k: nat)
    requires FirstFiring(FallbackOrder, actions, MoneyOf(players, name)) == Some(k)
    ensures Fallback(players, name, actions).action == FallbackOrder[k].action
  {
    var money := MoneyOf(players, name);
    var t := FallbackOrder;
    RuleTable();
    assert Fires(t[k], actions, money);
    assert forall j :: 0 <= j < k ==> !Fires(t[j], actions, money);
    if k >= 1 { assert !Fires(t[0], actions, money); }
    if k >= 2 { assert !Fires(t[1], actions, money); }
    if k >= 3 { assert !Fires(t[2], actions, money); }
    if k >= 4 { assert !Fires(t[3], actions, money); }
    if k >= 5 { assert !Fires(t[4], actions, money); }
  }

  /** When no rule fires, the chain of tests falls through to the first
      offered action, or `end_turn` when none is offered. */
  lemma FallbackWithoutRule(players: map<string, Option<int>>, name: string, actions: seq<string>)
    requires FirstFiring(FallbackOrder, actions, MoneyOf(players, name)).None?
    ensures Fallback(players, name, actions).action == if |actions| > 0 then actions[0] else EndTurn
  {
    var money := MoneyOf(players, name);
    var t := FallbackOrder;
    RuleTable();
    assert !Fires(t[0], actions, money) && !Fires(t[1], actions, money) && !Fires(t[2], actions, money);
    assert !Fires(t[3], actions, money) && !Fires(t[4], actions, money) && !Fires(t[5], actions, money);
  }

  /** The chain of tests is the priority table read top-down: the first rule
      of `FallbackOrder` that applies, else the first offered action, else
      `end_turn`. */
  lemma FallbackFollowsPriority(players: map<string, Option<int>>, name: string, actions: seq<string>)
    ensures Fallback(players, name, actions).action
         == match FirstFiring(FallbackOrder, actions, MoneyOf(players, name))
            case Some(k) => FallbackOrder[k].action
            case None => if |actions| > 0 then actions[0] else EndTurn
  {
    match FirstFiring(FallbackOrder, actions, MoneyOf(players, name))
    case Some(k) => FallbackTakesFirstRule(players, name, actions, k);
    case None => FallbackWithoutRule(players, name, actions);
  }

  /** What the fallback policy does with money: rolling wins whenever it is
      offered, whatever the money; buying is chosen with more than 200 when it
      is offered and rolling is not; bail is paid with more than 100 when no
      higher rule applies. Below those thresholds buying or bail is chosen only
      as the catch-all first offered action, when no rule applies at all. */
  lemma FallbackMoneyRules(players: map<string, Option<int>>, name: string, actions: seq<string>)
    ensures Roll in actions ==> Fallback(players, name, actions).action == Roll
    ensures (Buy in actions && Roll !in actions && MoneyOf(players, name) > 200)
              ==> Fallback(players, name, actions).action == Buy
    ensures (Fallback(players, name, actions).action == Buy && MoneyOf(players, name) <= 200)
              ==> actions[0] == Buy && FirstFiring(FallbackOrder, actions, MoneyOf(players, name)).None?
    ensures (Fallback(players, name, actions).action == Bail)
              ==> Roll !in actions && Decline !in actions && !(Buy in actions && MoneyOf(players, name) > 200)
    ensures (Fallback(players, name, actions).action == Bail && MoneyOf(players, name) <= 100)
              ==> actions[0] == Bail && FirstFiring(FallbackOrder, actions, MoneyOf(players, name)).None?
    ensures name !in players ==> Fallback(players, name, actions) == Fallback(map[], name, actions)
  {
    FallbackFollowsPriority(players, name, actions);
  }

  /** The outcome of asking the model, after `_parse_response`: the call
      failed, or it answered and its text (sliced by `FenceBody`) parsed as
      JSON to `json`, or else the first flat `{...}` found in it parsed to
      `searched`. */
  datatype ModelReply = CallFailed | Answered(json: Option<Decision>, searched: Option<Decision>)

  /** `_parse_response`'s last resort: an unparseable reply ends the turn. */
  function ParsedDecision(json: Option<Decision>, searched: Option<Decision>): (d: Decision)
    ensures json.Some? ==> d == json.value
    ensures json.None? && searched.Some? ==> d == searched.value
    ensures json.None? && searched.None? ==> d == Decision(EndTurn, NoParams)
  {
    match json
    case Some(j) => j
    case None => searched.GetOr(Decision(EndTurn, NoParams))
  }

  /** The lists `decide` answers without calling the model. */
  predicate NoModelNeeded(actions: seq<string>) {
    |actions| == 0 || actions == [EndTurn] || actions == [Roll]
  }

  /** `get_action_prompt` reads the `money` entry of every other player
      without a default. */
  predicate PromptReadable(players: map<string, Option<int>>, name: string) {
    forall n :: n in players && n != name ==> players[n].Some?
  }

  /** `decide` of the OpenAI and of the Ollama agent (they are identical).
      The prompt is built before the guarded model call, so another player
      without a `money` entry raises `KeyError` out of `decide`. */
  function ModelAgentDecide(name: string, players: map<string, Option<int>>, actions: seq<string>, reply: ModelReply): (r: Result<Decision>)
    ensures |actions| == 0 || actions == [EndTurn] ==> r == Ok(Decision(EndTurn, NoParams))
    ensures actions == [Roll] ==> r == Ok(Decision(Roll, NoParams))
    ensures !NoModelNeeded(actions) ==> (r.Ok? <==> PromptReadable(players, name))
    ensures !NoModelNeeded(actions) && !PromptReadable(players, name) ==> r == Err(KeyError("money"))
    ensures r.Ok? && !NoModelNeeded(actions) && reply.CallFailed? ==> r.value == Fallback(players, name, actions)
    ensures r.Ok? && !NoModelNeeded(actions) && reply.Answered? ==> r.value == ParsedDecision(reply.json, reply.searched)
  {
    if |actions| == 0 then Ok(Decision(EndTurn, NoParams))
    else if actions == [EndTurn] then Ok(Decision(EndTurn, NoParams))
    else if actions == [Roll] then Ok(Decision(Roll, NoParams))
    else if !PromptReadable(players, name) then Err(KeyError("money"))
    else match reply
      case CallFailed => Ok(Fallback(players, name, actions))
      case Answered(json, searched) => Ok(ParsedDecision(json, searched))
  }

  /** The short-circuit lists and the unreadable prompt do not depend on the
      model at all, and a failed call on a readable state still yields an
      offered action. */
  lemma NoModelCallNeeded(name: string, players: map<string, Option<int>>, actions: seq<string>, r1: ModelReply, r2: ModelReply)
    ensures (NoModelNeeded(actions) || !PromptReadable(players, name))
              ==> ModelAgentDecide(name, players, actions, r1) == ModelAgentDecide(name, players, actions, r2)
    ensures PromptReadable(players, name) ==>
              && ModelAgentDecide(name, players, actions, CallFailed).Ok?
              && (|| ModelAgentDecide(name, players, actions, CallFailed).value.action in actions
                  || (|actions| == 0 && ModelAgentDecide(name, players, actions, CallFailed).value.action == EndTurn))
  {
  }

  const JsonFence: string := "```json"
  const Fence: string := "```"

  /** The text `_parse_response` hands to the JSON parser: the stripped reply,
      cut to what follows the first "```json" (or, failing that, the first
      "```") up to the next "```", stripped again. It never holds a fence. */
  function FenceBody(response: string): (r: string)
    ensures !Contains(r, Fence)
  {
    var inner := FenceInner(Strip(response));
    NoFenceAfterStrip(inner);
    Strip(inner)
  }

  /** The slicing step of `FenceBody`, on the already stripped reply. */
  function FenceInner(s: string): (r: string)
    ensures !Contains(r, Fence)
  {
    if Contains(s, JsonFence) then
      BeforeLacksPattern(Second(s, JsonFence), Fence);
      Before(Second(s, JsonFence), Fence)
    else if Contains(s, Fence) then
      BeforeLacksPattern(s[Find(s, Fence).value + |Fence|..], Fence);
      BeforeLacksPattern(Second(s, Fence), Fence);
      Before(Second(s, Fence), Fence)
    else s
  }

  /** Stripping a text with no fence cannot create one. */
  lemma NoFenceAfterStrip(s: string)
    requires !Contains(s, Fence)
    ensures !Contains(Strip(s), Fence)
  {
    if Contains(Strip(s), Fence) {
      OccursInSlice(s, LeadCount(s), StripEnd(s), Fence, Find(Strip(s), Fence).value);
    }
  }

  predicate TickFree(s: string) {
    '`' !in s
  }

  /** Stripping a fenced reply only trims the text around the fence: the
      trimmed ends keep their shape. */
  lemma StripFenced(pre: string, body: string, rest: string) returns (pre': string, rest': string)
    requires TickFree(pre)
    requires |rest| == 0 || rest[0] != '`'
    ensures TickFree(pre') && (|rest'| == 0 || rest'[0] != '`')
    ensures Strip(pre + JsonFence + body + Fence + rest) == pre' + JsonFence + body + Fence + rest'
  {
    var mid := JsonFence + body + Fence;
    var s := pre + mid + rest;
    assert s == pre + JsonFence + body + Fence + rest;
    var a := LeadCount(s);
    var e := StripEnd(s);
    assert s[|pre|] == '`' && !IsSpace(s[|pre|]);
    assert s[|pre| + |mid| - 1] == '`' && !IsSpace(s[|pre| + |mid| - 1]);
    SliceAround(pre, mid, rest, a, e);
    pre' := pre[a..];
    rest' := rest[..e - |pre| - |mid|];
    assert forall c :: c in pre' ==> c in pre;
    assert pre' + mid + rest' == pre' + JsonFence + body + Fence + rest';
  }

  /** Inside a fenced text, the next "```json" cannot start before the
      closing fence ends, so cutting there and then at the first "```" leaves
      exactly the fenced text. */
  lemma CutAtClosingFence(body: string, rest: string)
    requires TickFree(body)
    requires |rest| == 0 || rest[0] != '`'
    ensures Before(Before(body + Fence + rest, JsonFence), Fence) == body
  {
    var u := body + Fence + rest;
    var cut := Before(u, JsonFence);
    forall i | 0 <= i < |body| ensures !OccursAt(u, JsonFence, i) {
      assert u[i] == body[i];
      HeadMismatch(u, JsonFence, i);
    }
    forall i | |body| < i < |body| + 3 ensures !OccursAt(u, JsonFence, i) {
      if i + |JsonFence| <= |u| {
        assert u[|body| + 3] == rest[0];
        assert u[i..i + |JsonFence|][|body| + 3 - i] == u[|body| + 3];
      }
    }
    assert |cut| == |body| || |cut| >= |body| + 3 by {
      if Contains(u, JsonFence) {
        assert OccursAt(u, JsonFence, |cut|);
      }
    }
    if |cut| == |body| {
      assert cut == body;
      assert !Contains(cut, Fence) by {
        forall i | 0 <= i <= |cut| ensures !OccursAt(cut, Fence, i) {
          if i < |cut| { HeadMismatch(cut, Fence, i); }
        }
      }
    } else {
      assert |cut| >= |body| + 3;
      assert cut == body + Fence + cut[|body| + 3..];
      FindAfterPrefix(body, Fence, cut[|body| + 3..]);
    }
  }

  /** A reply whose JSON sits in a "```json" fence yields exactly the stripped
      fenced text, provided the text before the fence and the fenced text hold
      no backtick and the text after the closing fence does not start with
      one. */
  lemma JsonFenceRoundTrip(pre: string, body: string, rest: string)
    requires TickFree(pre) && TickFree(body)
    requires |rest| == 0 || rest[0] != '`'
    ensures FenceBody(pre + JsonFence + body + Fence + rest) == Strip(body)
  {
    var pre', rest' := StripFenced(pre, body, rest);
    var s := pre' + JsonFence + body + Fence + rest';
    var u := body + Fence + rest';
    assert s == pre' + JsonFence + u;
    FindAfterPrefix(pre', JsonFence, u);
    assert s[|pre'| + |JsonFence|..] == u;
    CutAtClosingFence(body, rest');
    assert FenceInner(s) == body;
  }

  /** A text holding "```json" holds "```". */
  lemma JsonFenceHoldsFence(s: string)
    requires Contains(s, JsonFence)
    ensures Contains(s, Fence)
  {
    var i := Find(s, JsonFence).value;
    assert s[i..i + |Fence|] == s[i..i + |JsonFence|][..|Fence|];
    assert OccursAt(s, Fence, i);
  }

  /** A reply with no fence at all is parsed as its stripped self. */
  lemma UnfencedReply(response: string)
    requires !Contains(response, Fence)
    ensures FenceBody(response) == Strip(response)
  {
    var s := Strip(response);
    NoFenceAfterStrip(response);
    if Contains(s, JsonFence) {
      JsonFenceHoldsFence(s);
    }
    assert FenceInner(s) == s;
    StripIdempotent(response);
  }

  /** Whether a console entry picks an action: a number between 1 and `n`
      (`None` stands for text `int()` rejects). */
  predicate ValidChoice(entry: Option<int>, n: nat) {
    entry.Some? && 1 <= entry.value <= n
  }

  /** The human agent's prompt loop: the index of the first entry that picks
      an action, or `None` when the entries run out first. */
  function FirstValidChoice(entries: seq<Option<int>>, n: nat): (k: Option<nat>)
    ensures k.Some? ==> k.value < |entries| && ValidChoice(entries[k.value], n)
    ensures k.Some? ==> forall j :: 0 <= j < k.value ==> !ValidChoice(entries[j], n)
    ensures k.None? ==> forall j :: 0 <= j < |entries| ==> !ValidChoice(entries[j], n)
  {
    if |entries| == 0 then None
    else if ValidChoice(entries[0], n) then Some(0)
    else match FirstValidChoice(entries[1..], n)
      case None => None
      case Some(k) => Some(k + 1)
  }

  /** `int(input(prompt))` on the console entries still to come: running out
      raises `EOFError`, and an entry `int()` rejects raises `ValueError`. */
  function ReadInt(rest: seq<Option<int>>): (r: Result<int>)
    ensures |rest| == 0 <==> r == Err(EOFError)
    ensures |rest| > 0 ==> (r.Ok? <==> rest[0].Some?) && (r.Ok? ==> r.value == rest[0].value)
    ensures |rest| > 0 && rest[0].None? ==> r.Err? && r.error.ValueError?
  {
    if |rest| == 0 then Err(EOFError)
    else match rest[0]
      case None => Err(ValueError("invalid literal for int() with base 10"))
      case Some(v) => Ok(v)
  }

  /** The human agent's parameters for a chosen action, read from the console
      entries that follow the choice: a bid asks for the amount and names the
      player; an auction action names the player; a build, mortgage or
      property-position action asks for the position. */
  function HumanParams(action: string, name: string, rest: seq<Option<int>>): (r: Result<Params>)
    ensures Contains(action, "bid") ==>
      && (r.Ok? <==> |rest| > 0 && rest[0].Some?)
      && (r.Ok? ==> r.value == Params(Some(name), rest[0], None))
      && (|rest| == 0 ==> r == Err(EOFError))
      && (|rest| > 0 && rest[0].None? ==> r.Err? && r.error.ValueError?)
    ensures (!Contains(action, "bid") && Contains(action, "auction")) ==> r == Ok(Params(Some(name), None, None))
    ensures (&& !Contains(action, "bid") && !Contains(action, "auction")
             && (Contains(action, "property_position") || Contains(action, "build") || Contains(action, "mortgage")))
      ==> && (r.Ok? <==> |rest| > 0 && rest[0].Some?)
          && (r.Ok? ==> r.value == Params(None, None, rest[0]))
          && (|rest| == 0 ==> r == Err(EOFError))
          && (|rest| > 0 && rest[0].None? ==> r.Err? && r.error.ValueError?)
    ensures (&& !Contains(action, "bid") && !Contains(action, "auction") && !Contains(action, "property_position")
             && !Contains(action, "build") && !Contains(action, "mortgage"))
      ==> r == Ok(NoParams)
  {
    if Contains(action, "bid") then
      match ReadInt(rest)
      case Err(e) => Err(e)
      case Ok(amount) => Ok(Params(Some(name), Some(amount), None))
    else if Contains(action, "auction") then Ok(Params(Some(name), None, None))
    else if Contains(action, "property_position") || Contains(action, "build") || Contains(action, "mortgage") then
      match ReadInt(rest)
      case Err(e) => Err(e)
      case Ok(pos) => Ok(Params(None, None, Some(pos)))
    else Ok(NoParams)
  }

  /** `HumanAgent.decide` on the console entries: the first valid choice picks
      the action (running out of input first raises `EOFError`), its
      parameters are read from the entries after that choice (an exception
      there propagates), and the action name sent is the first
      whitespace-separated word of the chosen action (`IndexError` if it has
      none). */
  function HumanDecide(name: string, actions: seq<string>, entries: seq<Option<int>>): (r: Result<Decision>)
    ensures FirstValidChoice(entries, |actions|).None? ==> r == Err(EOFError)
    ensures FirstValidChoice(entries, |actions|).Some? ==>
      var k := FirstValidChoice(entries, |actions|).value;
      var action := actions[entries[k].value - 1];
      var params := HumanParams(action, name, entries[k + 1..]);
      && (params.Err? ==> r == Err(params.error))
      && (params.Ok? && FirstToken(action).None? ==> r.Err? && r.error.IndexError?)
      && (r.Ok? <==> params.Ok? && FirstToken(action).Some?)
      && (r.Ok? ==> Some(r.value.action) == FirstToken(action) && r.value.params == params.value)
    ensures r.Ok? ==> exists k :: 0 <= k < |actions| && Some(r.value.action) == FirstToken(actions[k])
    ensures r.Ok? ==> |r.value.action| > 0 && forall i :: 0 <= i < |r.value.action| ==> !IsSpace(r.value.action[i])
  {
    match FirstValidChoice(entries, |actions|)
    case None => Err(EOFError)
    case Some(k) =>
      var action := actions[entries[k].value - 1];
      match HumanParams(action, name, entries[k + 1..])
      case Err(e) => Err(e)
      case Ok(params) =>
        match FirstToken(action)
        case None => Err(IndexError("list index out of range"))
        case Some(token) => Ok(Decision(token, params))
  }

  datatype AgentKind =
    | OpenAIAgent(model: string)
    | OllamaAgent(model: string, host: string)
    | HumanAgent

  datatype Agent = Agent(name: string, kind: AgentKind)

  const DefaultOpenAIModel: string := "gpt-4o-mini"
  const DefaultOllamaModel: string := "llama3.1"
  const DefaultOllamaHost: string := "http://localhost:11434"

  /** The agent-type name each kind is created from. */
  function TypeName(kind: AgentKind): string {
    match kind
    case OpenAIAgent(_) => "openai"
    case OllamaAgent(_, _) => "ollama"
    case HumanAgent => "human"
  }

  /** `create_agent`: "openai", "ollama" and "human" build the matching agent
      under the given name (a model name, and for Ollama a host, override the
      defaults; the human agent ignores both); any other type raises
      `ValueError`. The keyword arguments go to the agent's constructor as
      they are, and the OpenAI agent's constructor takes no `host`, so giving
      one raises `TypeError`. */
  function CreateAgent(name: string, agentType: string, model: Option<string>, host: Option<string>): (r: Result<Agent>)
    ensures r.Ok? <==> agentType in {"openai", "ollama", "human"} && !(agentType == "openai" && host.Some?)
    ensures agentType !in {"openai", "ollama", "human"} ==> r == Err(ValueError("Unknown agent type: " + agentType))
    ensures agentType == "openai" && host.Some? ==> r.Err? && r.error.TypeError?
    ensures r.Ok? ==> r.value.name == name && TypeName(r.value.kind) == agentType
    ensures r.Ok? && !r.value.kind.HumanAgent? ==> r.value.kind.model == model.GetOr(
              if agentType == "openai" then DefaultOpenAIModel else DefaultOllamaModel)
    ensures r.Ok? && r.value.kind.OllamaAgent? ==> r.value.kind.host == host.GetOr(DefaultOllamaHost)
  {
    if agentType == "openai" then
      if host.Some? then Err(TypeError("OpenAIAgent.__init__() got an unexpected keyword argument 'host'"))
      else Ok(Agent(name, OpenAIAgent(model.GetOr(DefaultOpenAIModel))))
    else if agentType == "ollama" then Ok(Agent(name, OllamaAgent(model.GetOr(DefaultOllamaModel), host.GetOr(DefaultOllamaHost))))
    else if agentType == "human" then Ok(Agent(name, HumanAgent))
    else Err(ValueError("Unknown agent type: " + agentType))
  }

  /** Every agent is built back from its type name and its settings. */
  lemma CreateAgentRoundTrip(a: Agent)
    ensures CreateAgent(a.name, TypeName(a.kind),
              if a.kind.HumanAgent? then None else Some(a.kind.model),
              if a.kind.OllamaAgent? then Some(a.kind.host) else None) == Ok(a)
  {
  }
}

=== FILE: bank.dfy ===
/** The bank of src/Bank.py: one balance with unchecked pay-in and pay-out,
    and the zero-sum transfers it forms with a player's purse. */
module Banking {
  import opened Players

  const InitialReserve: int := 200000

  datatype Bank = Bank(balance: int)

  /** A new bank holds the fixed reserve. */
  function NewBank(): (b: Bank)
    ensures Balance(b) == InitialReserve
  {
    Bank(InitialReserve)
  }

  /** `pay_in`: the balance grows by exactly `amount`. */
  function PayIn(b: Bank, amount: int): (r: Bank)
    ensures Balance(r) - Balance(b) == amount
  {
    Bank(b.balance + amount)
  }

  /** `pay_out`: the balance shrinks by exactly `amount`, with no check, so
      the bank goes negative exactly when it pays out more than it holds. */
  function PayOut(b: Bank, amount: int): (r: Bank)
    ensures Balance(b) - Balance(r) == amount
    ensures Balance(r) < 0 <==> amount > Balance(b)
  {
    Bank(b.balance - amount)
  }

  /** `get_bank_balance`. */
  function Balance(b: Bank): (r: int)
    ensures b == Bank(r)
  {
    b.balance
  }

  /** Paying in and then out the same amount restores the bank. */
  lemma PayInThenOut(b: Bank, amount: int)
    ensures PayOut(PayIn(b, amount), amount) == b
    ensures PayIn(PayOut(b, amount), amount) == b
  {
  }

  /** A player paying the bank (`subtract_player_money` paired with `pay_in`)
      keeps purse plus balance constant, and so does the bank paying a player. */
  lemma TransfersConserveMoney(p: Player, b: Bank, amount: int)
    ensures SubtractMoney(p, amount).money + Balance(PayIn(b, amount)) == p.money + Balance(b)
    ensures AddMoney(p, amount).money + Balance(PayOut(b, amount)) == p.money + Balance(b)
  {
  }
}

=== FILE: cards.dfy ===
/** The two constant 16-card decks of src/data/chance_cards_data.py and
    src/data/community_chest_data.py, with the fixed action vocabulary their
    `action` keys use. Each action carries exactly the extra keys its card
    dictionaries carry. */
module Cards {

  datatype NearestTarget = Railroad | Utility

  /** How rent is charged on the tile a `move_to_nearest` card sends to. */
  datatype NearestRent = RentMultiplier(factor: int) | DiceRollX10

  datatype CardAction =
    | MoveToId(destinationId: int, collectSalary: bool, collectSalaryIfPassGo: bool)
    | MoveToNearest(targetType: NearestTarget, rent: NearestRent)
    | CollectMoney(amount: int)
    | PayMoney(amount: int)
    | GetOutOfJailCard(amount: int)
    | MoveRelative(amount: int)
    | GoToJail(amount: int)
    | GeneralRepairs(houseCost: int, hotelCost: int)
    | PayEachPlayer(amount: int)
    | AdvanceToGo(amount: int)
    | CollectFromPlayers(amount: int)
    | StreetRepairs(houseCost: int, hotelCost: int)

  datatype Card = Card(id: int, content: string, action: CardAction)

  /** The `action` string of a card. */
  function ActionName(a: CardAction): string {
    match a
    case MoveToId(_, _, _) => "move_to_id"
    case MoveToNearest(_, _) => "move_to_nearest"
    case CollectMoney(_) => "collect_money"
    case PayMoney(_) => "pay_money"
    case GetOutOfJailCard(_) => "get_out_of_jail_card"
    case MoveRelative(_) => "move_relative"
    case GoToJail(_) => "go_to_jail"
    case GeneralRepairs(_, _) => "general_repairs"
    case PayEachPlayer(_) => "pay_each_player"
    case AdvanceToGo(_) => "advance_to_go"
    case CollectFromPlayers(_) => "collect_from_players"
    case StreetRepairs(_, _) => "street_repairs"
  }

  /** Action names tell actions apart: the vocabulary has no synonyms. */
  lemma ActionNamesDistinct(a: CardAction, b: CardAction)
    requires ActionName(a) == ActionName(b)
    ensures a.MoveToId? == b.MoveToId? && a.MoveToNearest? == b.MoveToNearest?
    ensures a.CollectMoney? == b.CollectMoney? && a.PayMoney? == b.PayMoney?
    ensures a.GetOutOfJailCard? == b.GetOutOfJailCard? && a.MoveRelative? == b.MoveRelative?
    ensures a.GoToJail? == b.GoToJail? && a.GeneralRepairs? == b.GeneralRepairs?
    ensures a.PayEachPlayer? == b.PayEachPlayer? && a.AdvanceToGo? == b.AdvanceToGo?
    ensures a.CollectFromPlayers? == b.CollectFromPlayers? && a.StreetRepairs? == b.StreetRepairs?
  {
  }

  /** The single money amount a card names, where it has one. */
  function Amount(a: CardAction): int {
    match a
    case CollectMoney(n) => n
    case PayMoney(n) => n
    case GetOutOfJailCard(n) => n
    case MoveRelative(n) => n
    case GoToJail(n) => n
    case PayEachPlayer(n) => n
    case AdvanceToGo(n) => n
    case CollectFromPlayers(n) => n
    case _ => 0
  }

  /** Whether a card moves the player's token. */
  predicate Moves(a: CardAction) {
    a.MoveToId? || a.MoveToNearest? || a.MoveRelative? || a.GoToJail? || a.AdvanceToGo?
  }

  const ChanceCards: seq<Card> := [
    Card(0, "Advance to Boardwalk.", MoveToId(39, false, false)),
    Card(1, "Advance to Go (Collect $200).", MoveToId(0, true, false)),
    Card(2, "Advance to Illinois Avenue. If you pass Go, collect $200.", MoveToId(24, false, true)),
    Card(3, "Advance to St. Charles Place. If you pass Go, collect $200.", MoveToId(11, false, true)),
    Card(4, "Advance to the nearest Railroad. If unowned, you may buy it from the Bank. If owned, pay owner twice the rental to which they are otherwise entitled.",
         MoveToNearest(Railroad, RentMultiplier(2))),
    Card(5, "Advance to the nearest Railroad. If unowned, you may buy it from the Bank. If owned, pay owner twice the rental to which they are otherwise entitled.",
         MoveToNearest(Railroad, RentMultiplier(2))),
    Card(6, "Advance token to nearest Utility. If unowned, you may buy it from the Bank. If owned, throw dice and pay owner a total ten times amount thrown.",
         MoveToNearest(Utility, DiceRollX10)),
    Card(7, "Bank pays you dividend of $50.", CollectMoney(50)),
    Card(8, "Get Out of Jail Free.", GetOutOfJailCard(0)),
    Card(9, "Go Back 3 Spaces.", MoveRelative(-3)),
    Card(10, "Go to Jail. Go directly to Jail, do not pass Go, do not collect $200.", GoToJail(0)),
    Card(11, "Make general repairs on all your property. For each house pay $25. For each hotel pay $100.",
         GeneralRepairs(25, 100)),
    Card(12, "Speeding fine $15.", PayMoney(15)),
    Card(13, "Take a trip to Reading Railroad. If you pass Go, collect $200.", MoveToId(5, false, true)),
    Card(14, "You have been elected Chairman of the Board. Pay each player $50.", PayEachPlayer(50)),
    Card(15, "Your building loan matures. Collect $150.", CollectMoney(150))
  ]

  const CommunityChestCards: seq<Card> := [
    Card(0, "Advance to GO (Collect $200)", AdvanceToGo(200)),
    Card(1, "Bank error in your favor. Collect $200.", CollectMoney(200)),
    Card(2, "Doctor's fees. Pay $50.", PayMoney(50)),
    Card(3, "From sale of stock you get $50.", CollectMoney(50)),
    Card(4, "Get Out of Jail Free.", GetOutOfJailCard(0)),
    Card(5, "Go to Jail. Go directly to Jail, do not pass Go, do not collect $200.", GoToJail(0)),
    Card(6, "Holiday Fund matures. Receive $100.", CollectMoney(100)),
    Card(7, "Income tax refund. Collect $20.", CollectMoney(20)),
    Card(8, "It is your birthday. Collect $10 from every player.", CollectFromPlayers(10)),
    Card(9, "Life insurance matures. Collect $100.", CollectMoney(100)),
    Card(10, "Pay hospital fees of $100.", PayMoney(100)),
    Card(11, "Pay school fees of $50.", PayMoney(50)),
    Card(12, "Receive $25 consultancy fee.", CollectMoney(25)),
    Card(13, "You are assessed for street repairs. $40 per house. $115 per hotel.", StreetRepairs(40, 115)),
    Card(14, "You have won second prize in a beauty contest. Collect $10.", CollectMoney(10)),
    Card(15, "You inherit $100.", CollectMoney(100))
  ]

  /** A deck of 16 cards whose ids are their positions, whose fixed
      destinations are board tiles, and which holds exactly one jail-free card
      (at `jailFree`) and exactly one go-to-jail card (at `goToJail`). */
  predicate WellFormedDeck(deck: seq<Card>, jailFree: int, goToJail: int) {
    && |deck| == 16
    && (forall i :: 0 <= i < |deck| ==> deck[i].id == i)
    && (forall i :: 0 <= i < |deck| && deck[i].action.MoveToId? ==> 0 <= deck[i].action.destinationId <= 39)
    && (forall i :: 0 <= i < |deck| ==> (deck[i].action.GetOutOfJailCard? <==> i == jailFree))
    && (forall i :: 0 <= i < |deck| ==> (deck[i].action.GoToJail? <==> i == goToJail))
  }

  /** The ids of the Chance cards are their positions. */
  lemma ChanceIds()
    ensures |ChanceCards| == 16 && forall i :: 0 <= i < |ChanceCards| ==> ChanceCards[i].id == i
  {
  }

  /** The Chance jail cards sit at 8 and 10. */
  lemma ChanceJailCards()
    ensures forall i :: 0 <= i < |ChanceCards| ==> (ChanceCards[i].action.GetOutOfJailCard? <==> i == 8)
    ensures forall i :: 0 <= i < |ChanceCards| ==> (ChanceCards[i].action.GoToJail? <==> i == 10)
  {
  }

  /** The Chance cards with a fixed destination: 39, 0, 24, 11 and 5 on cards
      0, 1, 2, 3 and 13, all of them board tiles. */
  lemma ChanceDestinations()
    ensures forall i :: 0 <= i < |ChanceCards| ==>
      (ChanceCards[i].action.MoveToId? <==> i == 0 || i == 1 || i == 2 || i == 3 || i == 13)
    ensures forall i :: 0 <= i < |ChanceCards| && ChanceCards[i].action.MoveToId? ==>
      0 <= ChanceCards[i].action.destinationId <= 39
    ensures ChanceCards[0].action.destinationId == 39 && ChanceCards[1].action.destinationId == 0
    ensures ChanceCards[2].action.destinationId == 24 && ChanceCards[3].action.destinationId == 11
    ensures ChanceCards[13].action.destinationId == 5
  {
  }

  /** The Chance deck is well formed: 16 cards numbered 0..15, one jail-free
      card (id 8), one go-to-jail card (id 10), and fixed destinations that
      are board tiles. */
  lemma ChanceDeckShape()
    ensures WellFormedDeck(ChanceCards, 8, 10)
  {
    ChanceIds();
    ChanceJailCards();
    ChanceDestinations();
  }

  /** The three move-to-nearest Chance cards: two railroad cards doubling the
      rent, one utility card charging ten times the dice. */
  lemma ChanceNearestCards()
    ensures forall i :: 0 <= i < |ChanceCards| && ChanceCards[i].action.MoveToNearest? ==>
      || ((i == 4 || i == 5) && ChanceCards[i].action == MoveToNearest(Railroad, RentMultiplier(2)))
      || (i == 6 && ChanceCards[i].action == MoveToNearest(Utility, DiceRollX10))
    ensures ChanceCards[4].action == MoveToNearest(Railroad, RentMultiplier(2))
    ensures ChanceCards[5].action == MoveToNearest(Railroad, RentMultiplier(2))
    ensures ChanceCards[6].action == MoveToNearest(Utility, DiceRollX10)
  {
  }

  /** Chance money amounts: the only negative one is the move back 3 spaces,
      and every amount a card collects or pays is positive. */
  lemma ChanceAmounts()
    ensures forall i :: 0 <= i < |ChanceCards| ==> (Amount(ChanceCards[i].action) < 0 <==> i == 9)
    ensures ChanceCards[9].action == MoveRelative(-3)
    ensures forall i :: 0 <= i < |ChanceCards| && (ChanceCards[i].action.CollectMoney? || ChanceCards[i].action.PayMoney? || ChanceCards[i].action.PayEachPlayer?) ==>
      Amount(ChanceCards[i].action) > 0
    ensures ChanceCards[7].action == CollectMoney(50) && ChanceCards[15].action == CollectMoney(150)
    ensures ChanceCards[12].action == PayMoney(15) && ChanceCards[14].action == PayEachPlayer(50)
  {
  }

  /** Salary flags: only card 1 collects a salary outright; cards 2, 3 and 13
      collect it only when passing Go. General repairs cost 25 a house and 100
      a hotel. */
  lemma ChanceSalaryAndRepairs()
    ensures forall i :: 0 <= i < |ChanceCards| && ChanceCards[i].action.MoveToId? ==>
      (ChanceCards[i].action.collectSalary <==> i == 1)
    ensures forall i :: 0 <= i < |ChanceCards| && ChanceCards[i].action.MoveToId? ==>
      (ChanceCards[i].action.collectSalaryIfPassGo <==> i == 2 || i == 3 || i == 13)
    ensures forall i :: 0 <= i < |ChanceCards| ==> (ChanceCards[i].action.GeneralRepairs? <==> i == 11)
    ensures ChanceCards[11].action == GeneralRepairs(25, 100)
  {
  }

  /** The ids of the CommunityChest cards are their positions. */
  lemma CommunityChestIds()
    ensures |CommunityChestCards| == 16 && forall i :: 0 <= i < |CommunityChestCards| ==> CommunityChestCards[i].id == i
  {
  }

  /** The CommunityChest jail cards sit at 4 and 5. */
  lemma CommunityChestJailCards()
    ensures forall i :: 0 <= i < |CommunityChestCards| ==> (CommunityChestCards[i].action.GetOutOfJailCard? <==> i == 4)
    ensures forall i :: 0 <= i < |CommunityChestCards| ==> (CommunityChestCards[i].action.GoToJail? <==> i == 5)
  {
  }

  /** The Community Chest deck: 16 cards numbered 0..15, one jail-free card
      (id 4), one go-to-jail card (id 5), and no card with a destination: its
      only moves are advancing to Go (amount 200) and going to jail. */
  lemma CommunityChestDeckShape()
    ensures WellFormedDeck(CommunityChestCards, 4, 5)
    ensures forall i :: 0 <= i < |CommunityChestCards| ==>
      !CommunityChestCards[i].action.MoveToId? && !CommunityChestCards[i].action.MoveToNearest?
    ensures forall i :: 0 <= i < |CommunityChestCards| && Moves(CommunityChestCards[i].action) ==>
      CommunityChestCards[i].action == AdvanceToGo(200) || CommunityChestCards[i].action == GoToJail(0)
  {
    CommunityChestIds();
    CommunityChestJailCards();
  }

  /** Community Chest money amounts: every payment and every collection is
      positive; pay amounts are 50, 100, 50; the birthday card collects 10 from
      each player; street repairs cost 40 a house and 115 a hotel. */
  lemma CommunityChestAmounts()
    ensures forall i :: 0 <= i < |CommunityChestCards| && (CommunityChestCards[i].action.PayMoney? || CommunityChestCards[i].action.CollectMoney?) ==>
      Amount(CommunityChestCards[i].action) > 0
    ensures forall i :: 0 <= i < |CommunityChestCards| ==>
      (CommunityChestCards[i].action.PayMoney? <==> i == 2 || i == 10 || i == 11)
    ensures CommunityChestCards[2].action == PayMoney(50)
    ensures CommunityChestCards[10].action == PayMoney(100)
    ensures CommunityChestCards[11].action == PayMoney(50)
    ensures forall i :: 0 <= i < |CommunityChestCards| ==> (CommunityChestCards[i].action.CollectFromPlayers? <==> i == 8)
    ensures CommunityChestCards[8].action == CollectFromPlayers(10)
    ensures forall i :: 0 <= i < |CommunityChestCards| ==> (CommunityChestCards[i].action.StreetRepairs? <==> i == 13)
    ensures CommunityChestCards[13].action == StreetRepairs(40, 115)
  {
  }
}

=== FILE: game.dfy ===
/** The board-movement draft of src/game.py: a game state holding players,
    generated tiles and a bank, dice-sum movement that wraps at 40, and the
    first-player turn guard. Dice values are parameters (the dice roller is
    not part of this model). */
module Game {
  import opened Outcomes
  import opened Players
  import opened Banking

  const BoardSize: int := 40
  const StartingCash: int := 1500

  /** The tile object `generate_tiles` creates, recording which class was
      instantiated for which id. */
  datatype GeneratedTile = StreetTile(id: int) | RailroadTile(id: int)

  datatype GameState = GameState(
    players: seq<Player>,
    playerTurn: int,
    noOfPlayers: int,
    status: string,
    gameTiles: seq<GeneratedTile>,
    bank: Option<Bank>)

  /** A fresh game: no players, turn 0, a player count taken from the empty
      list, status "INITILIZING" (spelled as in the source), no tiles, and no
      bank until `initialize_game`. The constructor ignores its argument. */
  function NewGameState(): (g: GameState)
    ensures g.players == [] && g.playerTurn == 0 && g.noOfPlayers == 0
    ensures g.status == "INITILIZING" && g.gameTiles == [] && g.bank.None?
  {
    var players: seq<Player> := [];
    GameState(players, 0, |players|, "INITILIZING", [], None)
  }

  /** Total money held by a list of players. */
  function TotalMoney(ps: seq<Player>): int {
    if |ps| == 0 then 0 else TotalMoney(ps[..|ps| - 1]) + ps[|ps| - 1].money
  }

  lemma {:induction false} TotalMoneyAppend(ps: seq<Player>, qs: seq<Player>)
    ensures TotalMoney(ps + qs) == TotalMoney(ps) + TotalMoney(qs)
    decreases |qs|
  {
    if |qs| == 0 {
      assert ps + qs == ps;
    } else {
      assert (ps + qs)[..|ps + qs| - 1] == ps + qs[..|qs| - 1];
      assert (ps + qs)[|ps + qs| - 1] == qs[|qs| - 1];
      TotalMoneyAppend(ps, qs[..|qs| - 1]);
    }
  }

  /** `register_players`: appends "ChatGPT" (id 1) and "Claude" (id 2), each
      with 1500, after the players already there; the total player money rises
      by exactly 3000. `no_of_players` is not updated. */
  function RegisterPlayers(g: GameState): (r: GameState)
    ensures |r.players| == |g.players| + 2
    ensures r.players[..|g.players|] == g.players
    ensures r.players[|g.players|] == AddMoney(NewPlayer("ChatGPT", 1), StartingCash)
    ensures r.players[|g.players| + 1] == AddMoney(NewPlayer("Claude", 2), StartingCash)
    ensures TotalMoney(r.players) == TotalMoney(g.players) + 2 * StartingCash
    ensures r == g.(players := r.players)
  {
    var player1 := AddMoney(NewPlayer("ChatGPT", 1), StartingCash);
    var player2 := AddMoney(NewPlayer("Claude", 2), StartingCash);
    TotalMoneyAppend(g.players, [player1, player2]);
    assert TotalMoney([player1, player2]) == 2 * StartingCash by {
      assert player1.money == StartingCash && player2.money == StartingCash;
      assert [player1, player2][..1] == [player1];
      assert [player1][..0] == [];
      assert TotalMoney([player1]) == player1.money;
      assert TotalMoney([player1, player2]) == TotalMoney([player1]) + player2.money;
    }
    g.(players := g.players + [player1, player2])
  }

  /** `move_player` on the player itself: advance by the dice sum, taking 40
      off once when the sum reaches 40. */
  function MovePlayer(p: Player, die1: int, die2: int): (r: Player)
    requires 1 <= die1 <= 6 && 1 <= die2 <= 6
    ensures 0 <= p.position < BoardSize ==> 0 <= r.position < BoardSize
    ensures 0 <= p.position < BoardSize ==> r.position == (p.position + die1 + die2) % BoardSize
    ensures r == p.(position := r.position)
  {
    var steps := die1 + die2;
    var newPos := Position(p) + steps;
    var newPos' := if newPos >= BoardSize then newPos - BoardSize else newPos;
    UpdatePosition(p, newPos')
  }

  /** Movement never pays: no pass-Go salary is credited even when the move
      wraps past tile 0, and name, id and purse are untouched. */
  lemma MoveCreditsNothing(p: Player, die1: int, die2: int)
    requires 1 <= die1 <= 6 && 1 <= die2 <= 6
    requires 0 <= p.position < BoardSize
    ensures MovePlayer(p, die1, die2).money == p.money
    ensures MovePlayer(p, die1, die2).name == p.name && MovePlayer(p, die1, die2).id == p.id
    ensures MovePlayer(p, die1, die2).position < p.position <==> p.position + die1 + die2 >= BoardSize
  {
  }

  /** Dice rolls as pairs of die values. */
  predicate ValidRolls(rolls: seq<(int, int)>) {
    forall i :: 0 <= i < |rolls| ==> 1 <= rolls[i].0 <= 6 && 1 <= rolls[i].1 <= 6
  }

  function MoveMany(p: Player, rolls: seq<(int, int)>): Player
    requires ValidRolls(rolls)
    decreases |rolls|
  {
    if |rolls| == 0 then p
    else MoveMany(MovePlayer(p, rolls[0].0, rolls[0].1), rolls[1..])
  }

  function RollTotal(rolls: seq<(int, int)>): int {
    if |rolls| == 0 then 0 else rolls[0].0 + rolls[0].1 + RollTotal(rolls[1..])
  }

  /** Movement composes: after any number of rolls from a tile on the board,
      the player stands on the start plus the sum of every die, mod 40, and
      the purse has not moved. */
  lemma {:induction false} MovesCompose(p: Player, rolls: seq<(int, int)>)
    requires ValidRolls(rolls)
    requires 0 <= p.position < BoardSize
    ensures MoveMany(p, rolls).position == (p.position + RollTotal(rolls)) % BoardSize
    ensures MoveMany(p, rolls) == p.(position := MoveMany(p, rolls).position)
    decreases |rolls|
  {
    if |rolls| > 0 {
      var q := MovePlayer(p, rolls[0].0, rolls[0].1);
      MovesCompose(q, rolls[1..]);
      var t := RollTotal(rolls[1..]);
      var d := rolls[0].0 + rolls[0].1;
      assert (q.position + t) % BoardSize == (p.position + d + t) % BoardSize by {
        ModAddLeft(p.position + d, t);
      }
    }
  }

  lemma ModAddLeft(a: int, t: int)
    ensures ((a % BoardSize) + t) % BoardSize == (a + t) % BoardSize
  {
    var q := a / BoardSize;
    assert a == q * BoardSize + a % BoardSize;
    assert (a + t) == (a % BoardSize + t) + q * BoardSize;
    ModShift(a % BoardSize + t, q);
  }

  lemma ModShift(x: int, q: int)
    ensures (x + q * BoardSize) % BoardSize == x % BoardSize
    decreases if q < 0 then -q else q
  {
    if q > 0 {
      ModShift(x, q - 1);
      assert x + q * BoardSize == (x + (q - 1) * BoardSize) + BoardSize;
    } else if q < 0 {
      ModShift(x, q + 1);
      assert x + q * BoardSize == (x + (q + 1) * BoardSize) - BoardSize;
    }
  }

  /** The tile class `generate_tiles` maps a type name to. */
  function TileClass(kind: string, id: int): (r: Option<GeneratedTile>)
    ensures r.Some? <==> kind == "street" || kind == "railroad"
    ensures r.Some? ==> r.value.id == id
    ensures r.Some? ==> (r.value.StreetTile? <==> kind == "street")
  {
    if kind == "street" then Some(StreetTile(id))
    else if kind == "railroad" then Some(RailroadTile(id))
    else None
  }

  /** `generate_tiles` as written: the class table is built before anything
      else, and its entry `Tiles.Railroad` names a class the tile module does
      not define, so every call raises `AttributeError`, whatever the type and
      the ids. */
  function GenerateTilesAsWritten(g: GameState, tileList: seq<int>, kind: string): (r: Result<GameState>)
    ensures r.Err? && r.error.AttributeError?
  {
    Err(AttributeError("module 'src.Tiles' has no attribute 'Railroad'"))
  }

  /** `generate_tiles` as intended: an unknown type raises `ValueError` and
      leaves the tiles alone; otherwise one tile per id is appended, in order,
      after the existing ones, and nothing else changes. */
  method GenerateTiles(g: GameState, tileList: seq<int>, kind: string) returns (r: Result<GameState>)
    ensures kind != "street" && kind != "railroad" <==> r.Err?
    ensures r.Err? ==> r.error == ValueError("Unknown tile type: " + kind)
    ensures r.Ok? ==> |r.value.gameTiles| == |g.gameTiles| + |tileList|
    ensures r.Ok? ==> r.value.gameTiles[..|g.gameTiles|] == g.gameTiles
    ensures r.Ok? ==> forall i :: 0 <= i < |tileList| ==>
              Some(r.value.gameTiles[|g.gameTiles| + i]) == TileClass(kind, tileList[i])
    ensures r.Ok? ==> r.value == g.(gameTiles := r.value.gameTiles)
  {
    if TileClass(kind, 0).None? {
      return Err(ValueError("Unknown tile type: " + kind));
    }
    var tiles := g.gameTiles;
    var k := 0;
    while k < |tileList|
      invariant 0 <= k <= |tileList|
      invariant |tiles| == |g.gameTiles| + k
      invariant tiles[..|g.gameTiles|] == g.gameTiles
      invariant forall i :: 0 <= i < k ==> Some(tiles[|g.gameTiles| + i]) == TileClass(kind, tileList[i])
    {
      tiles := tiles + [TileClass(kind, tileList[k]).value];
      k := k + 1;
    }
    return Ok(g.(gameTiles := tiles));
  }

  /** Generating street tiles fails as written, while the intended
      generation appends one street tile per id. */
  method StreetGenerationDiffers(g: GameState, ids: seq<int>) returns (written: Result<GameState>, intended: Result<GameState>)
    ensures written.Err? && written.error.AttributeError?
    ensures intended.Ok? && |intended.value.gameTiles| == |g.gameTiles| + |ids|
    ensures intended.Ok? && forall i :: 0 <= i < |ids| ==> intended.value.gameTiles[|g.gameTiles| + i] == StreetTile(ids[i])
  {
    written := GenerateTilesAsWritten(g, ids, "street");
    intended := GenerateTiles(g, ids, "street");
  }

  /** `populate_tiles` as intended: the street ids, then the railroad ids.
      As written it raises with `generate_tiles` (`GenerateTilesAsWritten`). */
  method PopulateTiles(g: GameState, landTiles: seq<int>, railroadTiles: seq<int>) returns (r: GameState)
    ensures |r.gameTiles| == |g.gameTiles| + |landTiles| + |railroadTiles|
    ensures r.gameTiles[..|g.gameTiles|] == g.gameTiles
    ensures forall i :: 0 <= i < |landTiles| ==> r.gameTiles[|g.gameTiles| + i] == StreetTile(landTiles[i])
    ensures forall i :: 0 <= i < |railroadTiles| ==>
              r.gameTiles[|g.gameTiles| + |landTiles| + i] == RailroadTile(railroadTiles[i])
    ensures r == g.(gameTiles := r.gameTiles)
  {
    var streets := GenerateTiles(g, landTiles, "street");
    var rails := GenerateTiles(streets.value, railroadTiles, "railroad");
    r := rails.value;
    assert r.gameTiles[..|g.gameTiles|] == streets.value.gameTiles[..|streets.value.gameTiles|][..|g.gameTiles|];
  }

  /** `initialize_game` as intended (as written it raises with
      `generate_tiles`): tiles, then the two players, then a fresh bank. From
      a new game this leaves two players holding 3000 between them, a bank of
      200000, and a stale player count of 0. */
  method InitializeGame(g: GameState, landTiles: seq<int>, railroadTiles: seq<int>) returns (r: GameState)
    ensures |r.gameTiles| == |g.gameTiles| + |landTiles| + |railroadTiles|
    ensures r.gameTiles[..|g.gameTiles|] == g.gameTiles
    ensures forall i :: 0 <= i < |landTiles| ==> r.gameTiles[|g.gameTiles| + i] == StreetTile(landTiles[i])
    ensures forall i :: 0 <= i < |railroadTiles| ==>
              r.gameTiles[|g.gameTiles| + |landTiles| + i] == RailroadTile(railroadTiles[i])
    ensures |r.players| == |g.players| + 2
    ensures r.players[..|g.players|] == g.players
    ensures r.players[|g.players|] == AddMoney(NewPlayer("ChatGPT", 1), StartingCash)
    ensures r.players[|g.players| + 1] == AddMoney(NewPlayer("Claude", 2), StartingCash)
    ensures TotalMoney(r.players) == TotalMoney(g.players) + 2 * StartingCash
    ensures r.bank == Some(NewBank())
    ensures r.playerTurn == g.playerTurn && r.noOfPlayers == g.noOfPlayers && r.status == g.status
    ensures g == NewGameState() ==> TotalMoney(r.players) == 3000 && r.noOfPlayers == 0
  {
    var populated := PopulateTiles(g, landTiles, railroadTiles);
    var registered := RegisterPlayers(populated);
    r := registered.(bank := Some(NewBank()));
  }

  /** The dictionary `get_stats` returns. */
  datatype Stats = Stats(status: string, players: seq<Player>, noOfPlayers: int, playerTurn: int, bank: int)

  /** `get_stats`: reading the bank before `initialize_game` has created it
      raises `AttributeError`; otherwise the report mirrors the state. */
  function GetStats(g: GameState): (r: Result<Stats>)
    ensures r.Ok? <==> g.bank.Some?
    ensures r.Err? ==> r.error.AttributeError?
    ensures r.Ok? ==> r.value.bank == Balance(g.bank.value) && r.value.players == g.players
    ensures r.Ok? ==> r.value.status == g.status && r.value.playerTurn == g.playerTurn
    ensures r.Ok? ==> r.value.noOfPlayers == g.noOfPlayers
  {
    match g.bank
    case None => Err(AttributeError("'GameState' object has no attribute 'bank'"))
    case Some(b) => Ok(Stats(g.status, g.players, g.noOfPlayers, g.playerTurn, Balance(b)))
  }

  /** The game rebuilt from a stats report and the tiles, which the report
      does not carry. */
  function FromStats(st: Stats, tiles: seq<GeneratedTile>): GameState {
    GameState(st.players, st.playerTurn, st.noOfPlayers, st.status, tiles, Some(Bank(st.bank)))
  }

  /** The report loses nothing but the tiles: a game with a bank is rebuilt
      from its stats and its tiles. */
  lemma StatsRoundTrip(g: GameState)
    requires g.bank.Some?
    ensures GetStats(g).Ok?
    ensures FromStats(GetStats(g).value, g.gameTiles) == g
  {
  }

  /** A fresh game has no report: asking for one raises `AttributeError`. */
  lemma NoStatsBeforeSetup()
    ensures GetStats(NewGameState()).Err?
    ensures GetStats(NewGameState()).error.AttributeError?
  {
  }

  /** Once `initialize_game` has put a fresh bank in place, the report shows
      the bank's 200000. */
  lemma StatsAfterSetup(g: GameState)
    requires g.bank == Some(NewBank())
    ensures GetStats(g).Ok? && GetStats(g).value.bank == 200000
  {
  }

  /** `manage_turns` as written: at turn 0 its first statement calls `log` on
      the `Logger` class instead of an instance, so the two strings fill
      `self` and `component_name`, the message is missing, and the call raises
      `TypeError` before any player is read. Any other turn leaves the state
      as it is. */
  function ManageTurnsAsWritten(g: GameState): (r: Result<GameState>)
    ensures r.Err? <==> g.playerTurn == 0
    ensures r.Err? ==> r.error.TypeError?
    ensures r.Ok? ==> r.value == g
  {
    if g.playerTurn == 0 then Err(TypeError("Logger.log() missing 1 required positional argument: 'message'"))
    else Ok(g)
  }

  /** At turn 0 with players registered, the turn as written raises, while the
      intended turn moves the first player by the dice. */
  lemma ManageTurnsNeverMovesAsWritten(g: GameState, die1: int, die2: int)
    requires 1 <= die1 <= 6 && 1 <= die2 <= 6
    requires g.playerTurn == 0 && |g.players| > 0
    ensures ManageTurnsAsWritten(g).Err?
    ensures ManageTurns(g, die1, die2).Ok?
    ensures ManageTurns(g, die1, die2).value.players[0] == MovePlayer(g.players[0], die1, die2)
  {
  }

  /** `manage_turns` as intended (logging through the game's own logger):
      only when `player_turn` is 0 is the first player moved; with no players
      the index raises `IndexError`. Any other state is left as it is. */
  function ManageTurns(g: GameState, die1: int, die2: int): (r: Result<GameState>)
    requires 1 <= die1 <= 6 && 1 <= die2 <= 6
    ensures g.playerTurn != 0 ==> r == Ok(g)
    ensures g.playerTurn == 0 && |g.players| == 0 <==> r.Err?
    ensures r.Ok? ==> |r.value.players| == |g.players|
    ensures r.Ok? ==> forall i :: 1 <= i < |g.players| ==> r.value.players[i] == g.players[i]
    ensures r.Ok? && g.playerTurn == 0 ==> r.value.players[0] == MovePlayer(g.players[0], die1, die2)
    ensures r.Ok? ==> r.value == g.(players := r.value.players)
  {
    if g.playerTurn != 0 then Ok(g)
    else if |g.players| == 0 then Err(IndexError("list index out of range"))
    else Ok(g.(players := g.players[0 := MovePlayer(g.players[0], die1, die2)]))
  }
}

=== FILE: outcomes.dfy ===
/** Failure-carrying values shared by the whole model: an optional value, and
    a success-or-exception result standing for a Python call that may raise. */
module Outcomes {

  datatype Option<T> = None | Some(value: T) {
    /** The value, or `default` when absent (Python's `dict.get(key, default)`). */
    function GetOr(default: T): T {
      match this
      case Some(v) => v
      case None => default
    }
  }

  /** The Python exceptions the modelled code can raise, with their messages. */
  datatype Exception =
    | ValueError(message: string)
    | IndexError(message: string)
    | KeyError(key: string)
    | TypeError(message: string)
    | AttributeError(message: string)
    | EOFError

  /** Either the value a call returns, or the exception it raises. */
  datatype Result<T> = Ok(value: T) | Err(error: Exception)
}

=== FILE: player.dfy ===
/** The player record of src/Player.py: a purse with unchecked arithmetic and
    a board position the caller may set to anything. */
module Players {

  const DefaultAvatar: string := "/src/data/images/bulb.svg"

  datatype Player = Player(name: string, id: int, position: int, money: int, avatar: string)

  /** A new player starts on tile 0 with an empty purse. */
  function NewPlayer(name: string, id: int): (p: Player)
    ensures p.position == 0 && p.money == 0
    ensures p.name == name && p.id == id && p.avatar == DefaultAvatar
  {
    Player(name, id, 0, 0, DefaultAvatar)
  }

  /** `add_player_money`: the purse grows by exactly `amount`, nothing else changes. */
  function AddMoney(p: Player, amount: int): (r: Player)
    ensures r.money - p.money == amount
    ensures r == p.(money := r.money)
  {
    p.(money := p.money + amount)
  }

  /** `subtract_player_money`: the purse shrinks by exactly `amount` with no
      floor, so it goes negative exactly when the player is overdrawn. */
  function SubtractMoney(p: Player, amount: int): (r: Player)
    ensures p.money - r.money == amount
    ensures r.money < 0 <==> amount > p.money
    ensures r == p.(money := r.money)
  {
    p.(money := p.money - amount)
  }

  /** `update_player_board_position`: any integer is accepted. */
  function UpdatePosition(p: Player, pos: int): (r: Player)
    ensures Position(r) == pos
    ensures r == p.(position := pos)
  {
    p.(position := pos)
  }

  /** `get_player_position`. */
  function Position(p: Player): (r: int)
    ensures p.(position := r) == p
  {
    p.position
  }

  /** The dictionary `get_player_details` returns. */
  datatype Details = Details(playerName: string, playerId: int, boardPosition: int, playerMoney: int, playerAvatar: string)

  function GetDetails(p: Player): (r: Details)
    ensures FromDetails(r) == p
  {
    Details(p.name, p.id, p.position, p.money, p.avatar)
  }

  function FromDetails(d: Details): Player {
    Player(d.playerName, d.playerId, d.boardPosition, d.playerMoney, d.playerAvatar)
  }

  /** The details report loses nothing: the player can be rebuilt from it. */
  lemma DetailsRoundTrip(p: Player)
    ensures FromDetails(GetDetails(p)) == p
    ensures GetDetails(FromDetails(GetDetails(p))) == GetDetails(p)
  {
  }

  /** Adding and then subtracting the same amount restores the player. */
  lemma AddThenSubtract(p: Player, amount: int)
    ensures SubtractMoney(AddMoney(p, amount), amount) == p
    ensures AddMoney(SubtractMoney(p, amount), amount) == p
  {
  }

  /** Setting the position and reading it back gives the value set, however
      far off the board, and leaves the purse alone. */
  lemma PositionRoundTrip(p: Player, pos: int)
    ensures Position(UpdatePosition(p, pos)) == pos
    ensures UpdatePosition(p, pos).money == p.money
    ensures UpdatePosition(p, Position(p)) == p
  {
  }
}

=== FILE: runner.dfy ===
/** The client-side steps of game_runner.py's game loop: cleaning up the
    action name an agent chose, dispatching it to one of the twelve engine
    calls, and the per-turn action counter that forces a turn to end. The
    engine calls themselves are named, not modelled. */
module Runner {
  import opened Outcomes
  import opened Text
  import opened Agents

  const PlaceBid: string := "place_bid"
  const PassAuction: string := "pass_auction"
  const UseJailCard: string := "use_jail_card"
  const BuildHouse: string := "build_house"
  const Mortgage: string := "mortgage_property"
  const Unmortgage: string := "unmortgage_property"

  /** The keys of `execute_action`'s table. */
  const ActionNames: seq<string> := [
    Roll, Buy, Decline, PlaceBid, PassAuction, Bail,
    UseJailCard, RollDoubles, BuildHouse, Mortgage, Unmortgage, EndTurn]

  /** The cleanup of an agent's action name: spaces become underscores, and
      an annotation starting at the first "(" is cut off and the rest
      stripped. Cutting first and replacing afterwards gives the same name,
      since the replacement never makes or removes a "(". */
  function NormalizeAction(s: string): (r: string)
    ensures ' ' !in r && '(' !in r
    ensures '(' !in s ==> r == ReplaceChar(s, ' ', '_')
    ensures '(' in s ==> forall c :: c in r ==> c in ReplaceChar(s, ' ', '_')
    ensures forall k :: 0 <= k < |s| && s[k] == '(' && '(' !in s[..k] ==>
              r == Strip(ReplaceChar(s[..k], ' ', '_'))
  {
    var t := ReplaceChar(s, ' ', '_');
    CutAtFirstParen(s);
    ContainsChar(t, '(');
    if Contains(t, "(") then
      var cut := Before(t, "(");
      BeforeLacksPattern(t, "(");
      ContainsChar(cut, '(');
      assert forall c :: c in cut ==> c in t;
      Strip(cut)
    else t
  }

  /** The text before the first "(" of the name with spaces replaced is the
      replaced text before the first "(" of the name itself. */
  lemma CutAtFirstParen(s: string)
    ensures forall k :: 0 <= k < |s| && s[k] == '(' && '(' !in s[..k] ==>
              Before(ReplaceChar(s, ' ', '_'), "(") == ReplaceChar(s[..k], ' ', '_')
  {
    var t := ReplaceChar(s, ' ', '_');
    forall k | 0 <= k < |s| && s[k] == '(' && '(' !in s[..k]
      ensures Before(t, "(") == ReplaceChar(s[..k], ' ', '_')
    {
      assert t[k..k + 1] == "(";
      assert OccursAt(t, "(", k);
      var r := Before(t, "(");
      assert |r| <= k;
      assert t[|r|..|r| + 1][0] == t[|r|];
      assert s[|r|] == '(';
      assert forall j :: 0 <= j < k ==> s[..k][j] == s[j];
      assert |r| == k;
      assert r == t[..k];
    }
  }

  /** Cleaning up a cleaned-up name changes nothing. */
  lemma NormalizeIdempotent(s: string)
    ensures NormalizeAction(NormalizeAction(s)) == NormalizeAction(s)
  {
    var r := NormalizeAction(s);
    ReplaceAbsent(r, ' ', '_');
  }

  /** The names the cleanup leaves alone are exactly those with no space and
      no "(". */
  lemma NormalizeFixedPoints(s: string)
    ensures NormalizeAction(s) == s <==> ' ' !in s && '(' !in s
  {
    if ' ' !in s && '(' !in s {
      ReplaceAbsent(s, ' ', '_');
    }
  }

  /** Replacing spaces in an annotated name touches only the separating
      space and the annotation. */
  lemma ReplaceAnnotated(name: string, note: string)
    requires forall i :: 0 <= i < |name| ==> name[i] != ' '
    ensures ReplaceChar(name + " (" + note, ' ', '_') == (name + "_") + "(" + ReplaceChar(note, ' ', '_')
  {
    var s := name + " (" + note;
    var t := ReplaceChar(s, ' ', '_');
    var r := (name + "_") + "(" + ReplaceChar(note, ' ', '_');
    forall i | 0 <= i < |s| ensures t[i] == r[i] {
      if i < |name| {
        assert s[i] == name[i] && r[i] == name[i];
      } else if i >= |name| + 2 {
        assert s[i] == note[i - |name| - 2];
      }
    }
  }

  /** A name followed by a space and an annotation in parentheses cleans up
      to the name with a trailing underscore. */
  lemma {:induction false} AnnotatedName(name: string, note: string)
    requires '(' !in name
    requires forall i :: 0 <= i < |name| ==> !IsSpace(name[i])
    ensures NormalizeAction(name + " (" + note) == name + "_"
  {
    var p := name + "_";
    var t := ReplaceChar(name + " (" + note, ' ', '_');
    ReplaceAnnotated(name, note);
    assert t == p + "(" + ReplaceChar(note, ' ', '_');
    BeforeAfterPrefix(p, "(", ReplaceChar(note, ' ', '_'));
    ContainsChar(t, '(');
    assert t[|p|] == '(';
    StripUnpadded(p);
  }

  /** The engine calls `execute_action` can make, with their arguments. */
  datatype EngineCall =
    | RollAndMove
    | BuyCurrentProperty
    | DeclinePurchase
    | PlaceBidCall(playerName: string, amount: int)
    | PassAuctionCall(playerName: string)
    | PayBail
    | UseJailCardCall
    | RollForDoubles
    | BuildHouseCall(position: int)
    | MortgageCall(position: int)
    | UnmortgageCall(position: int)
    | EndTurnCall

  /** What `execute_action` does: make one engine call, or answer
      `{"error": "Unknown action: <name>"}` without touching the game. */
  datatype Dispatch = Call(call: EngineCall) | UnknownAction(error: string)

  /** The table key that leads to an engine call. */
  function NameOf(c: EngineCall): string {
    match c
    case RollAndMove => Roll
    case BuyCurrentProperty => Buy
    case DeclinePurchase => Decline
    case PlaceBidCall(_, _) => PlaceBid
    case PassAuctionCall(_) => PassAuction
    case PayBail => Bail
    case UseJailCardCall => UseJailCard
    case RollForDoubles => RollDoubles
    case BuildHouseCall(_) => BuildHouse
    case MortgageCall(_) => Mortgage
    case UnmortgageCall(_) => Unmortgage
    case EndTurnCall => EndTurn
  }

  /** The parameters that make `execute_action` pass a call's arguments. */
  function ParamsOf(c: EngineCall): Params {
    match c
    case PlaceBidCall(name, amount) => Params(Some(name), Some(amount), None)
    case PassAuctionCall(name) => Params(Some(name), None, None)
    case BuildHouseCall(pos) => Params(None, None, Some(pos))
    case MortgageCall(pos) => Params(None, None, Some(pos))
    case UnmortgageCall(pos) => Params(None, None, Some(pos))
    case _ => NoParams
  }

  /** `execute_action`: the action name selects the engine call; missing
      parameters default to "" for the player name and 0 for the amount and
      the property position. */
  function ExecuteAction(action: string, params: Params): (r: Dispatch)
    ensures r.Call? <==> action in ActionNames
    ensures r.Call? ==> NameOf(r.call) == action
    ensures r.UnknownAction? ==> r.error == "Unknown action: " + action
    ensures r.Call? && r.call.PlaceBidCall? ==>
      r.call.playerName == params.playerName.GetOr("") && r.call.amount == params.amount.GetOr(0)
    ensures r.Call? && r.call.PassAuctionCall? ==> r.call.playerName == params.playerName.GetOr("")
    ensures r.Call? && (r.call.BuildHouseCall? || r.call.MortgageCall? || r.call.UnmortgageCall?) ==>
      r.call.position == params.propertyPosition.GetOr(0)
  {
    var name := params.playerName.GetOr("");
    var amount := params.amount.GetOr(0);
    var position := params.propertyPosition.GetOr(0);
    if action == Roll then Call(RollAndMove)
    else if action == Buy then Call(BuyCurrentProperty)
    else if action == Decline then Call(DeclinePurchase)
    else if action == PlaceBid then Call(PlaceBidCall(name, amount))
    else if action == PassAuction then Call(PassAuctionCall(name))
    else if action == Bail then Call(PayBail)
    else if action == UseJailCard then Call(UseJailCardCall)
    else if action == RollDoubles then Call(RollForDoubles)
    else if action == BuildHouse then Call(BuildHouseCall(position))
    else if action == Mortgage then Call(MortgageCall(position))
    else if action == Unmortgage then Call(UnmortgageCall(position))
    else if action == EndTurn then Call(EndTurnCall)
    else UnknownAction("Unknown action: " + action)
  }

  /** Every engine call is reached by its own name with its own arguments. */
  lemma DispatchRoundTrip(c: EngineCall)
    ensures ExecuteAction(NameOf(c), ParamsOf(c)) == Call(c)
  {
  }

  /** No key of the table ends in an underscore. */
  lemma KeysEndInLetters()
    ensures forall k :: k in ActionNames ==> |k| > 0 && k[|k| - 1] != '_'
  {
    assert forall i :: 0 <= i < |ActionNames| ==> |ActionNames[i]| > 0 && ActionNames[i][|ActionNames[i]| - 1] != '_';
  }

  /** An action listed with an annotation after a space, as in
      "build_house (on positions: [1, 3])", cleans up to a name ending in an
      underscore, which the table rejects as unknown. */
  lemma AnnotatedActionUnknown(name: string, note: string, params: Params)
    requires '(' !in name
    requires forall i :: 0 <= i < |name| ==> !IsSpace(name[i])
    ensures ExecuteAction(NormalizeAction(name + " (" + note), params)
         == UnknownAction("Unknown action: " + (name + "_"))
  {
    AnnotatedName(name, note);
    KeysEndInLetters();
    var n := name + "_";
    assert n[|n| - 1] == '_';
    assert forall k :: k in ActionNames ==> k != n;
    assert n !in ActionNames;
    var r := ExecuteAction(n, params);
    assert r == UnknownAction("Unknown action: " + n);
  }

  /** The building annotation itself. */
  lemma AnnotatedBuildHouse(params: Params)
    ensures ExecuteAction(NormalizeAction(BuildHouse + " (" + "on positions: [1, 3])"), params)
         == UnknownAction("Unknown action: " + (BuildHouse + "_"))
  {
    var name := BuildHouse;
    assert forall i :: 0 <= i < |name| ==> !IsSpace(name[i]);
    AnnotatedActionUnknown(name, "on positions: [1, 3])", params);
  }

  /** The letters of "pass_auction" that decide which words it holds. */
  lemma PassAuctionSpelling()
    ensures forall i :: 0 <= i < |PassAuction| - 1 ==> PassAuction[i] != 'b' || PassAuction[i + 1] != 'i'
    ensures 5 + |"auction"| <= |PassAuction| && forall k :: 0 <= k < |"auction"| ==> PassAuction[5 + k] == "auction"[k]
  {
  }

  /** "pass_auction" holds "auction" but not "bid". */
  lemma PassAuctionWords()
    ensures !Contains(PassAuction, "bid") && Contains(PassAuction, "auction")
  {
    PassAuctionSpelling();
    PairAbsent(PassAuction, "bid");
    ContainsAt(PassAuction, "auction", 5);
  }

  /** The letters of "build_house" that decide which words it holds. */
  lemma BuildHouseSpelling()
    ensures forall i :: 0 <= i < |BuildHouse| - 1 ==> BuildHouse[i] != 'b' || BuildHouse[i + 1] != 'i'
    ensures forall i :: 0 <= i < |BuildHouse| - 1 ==> BuildHouse[i] != 'a' || BuildHouse[i + 1] != 'u'
    ensures |"build"| <= |BuildHouse| && forall k :: 0 <= k < |"build"| ==> BuildHouse[k] == "build"[k]
  {
  }

  /** "build_house" holds "build" but neither "bid" nor "auction". */
  lemma BuildHouseWords()
    ensures !Contains(BuildHouse, "bid") && !Contains(BuildHouse, "auction") && Contains(BuildHouse, "build")
  {
    BuildHouseSpelling();
    PairAbsent(BuildHouse, "bid");
    PairAbsent(BuildHouse, "auction");
    ContainsAt(BuildHouse, "build", 0);
  }

  /** The letters of "mortgage_property" that decide which words it holds. */
  lemma MortgageSpelling()
    ensures forall i :: 0 <= i < |Mortgage| - 1 ==> Mortgage[i] != 'b' || Mortgage[i + 1] != 'i'
    ensures forall i :: 0 <= i < |Mortgage| - 1 ==> Mortgage[i] != 'a' || Mortgage[i + 1] != 'u'
    ensures |"mortgage"| <= |Mortgage| && forall k :: 0 <= k < |"mortgage"| ==> Mortgage[k] == "mortgage"[k]
  {
  }

  /** "mortgage_property" holds "mortgage" but neither "bid" nor "auction". */
  lemma MortgageWords()
    ensures !Contains(Mortgage, "bid") && !Contains(Mortgage, "auction") && Contains(Mortgage, "mortgage")
  {
    MortgageSpelling();
    PairAbsent(Mortgage, "bid");
    PairAbsent(Mortgage, "auction");
    ContainsAt(Mortgage, "mortgage", 0);
  }

  /** The letters of "unmortgage_property" that decide which words it holds. */
  lemma UnmortgageSpelling()
    ensures forall i :: 0 <= i < |Unmortgage| - 1 ==> Unmortgage[i] != 'b' || Unmortgage[i + 1] != 'i'
    ensures forall i :: 0 <= i < |Unmortgage| - 1 ==> Unmortgage[i] != 'a' || Unmortgage[i + 1] != 'u'
    ensures 2 + |"mortgage"| <= |Unmortgage| && forall k :: 0 <= k < |"mortgage"| ==> Unmortgage[2 + k] == "mortgage"[k]
  {
  }

  /** "unmortgage_property" holds "mortgage" but neither "bid" nor "auction". */
  lemma UnmortgageWords()
    ensures !Contains(Unmortgage, "bid") && !Contains(Unmortgage, "auction") && Contains(Unmortgage, "mortgage")
  {
    UnmortgageSpelling();
    PairAbsent(Unmortgage, "bid");
    PairAbsent(Unmortgage, "auction");
    ContainsAt(Unmortgage, "mortgage", 2);
  }

  /** The human agent's bid passes dispatch the player's name and the amount
      typed. */
  lemma HumanBidFeedsDispatch(name: string, amount: int, later: seq<Option<int>>)
    ensures HumanParams(PlaceBid, name, [Some(amount)] + later) == Ok(Params(Some(name), Some(amount), None))
    ensures ExecuteAction(PlaceBid, Params(Some(name), Some(amount), None)) == Call(PlaceBidCall(name, amount))
  {
    ContainsAt(PlaceBid, "bid", 6);
  }

  /** "place_bid" holds no whitespace. */
  lemma PlaceBidIsWord()
    ensures forall i :: 0 <= i < |PlaceBid| ==> !IsSpace(PlaceBid[i])
  {
  }

  /** A bid chosen at the last console entry has no amount to read, so the
      human agent's turn raises `EOFError`; one more entry supplies it. */
  lemma HumanBidNeedsAmount(name: string)
    ensures HumanDecide(name, [PlaceBid], [Some(1)]) == Err(EOFError)
    ensures HumanDecide(name, [PlaceBid], [Some(1), Some(50)]) == Ok(Decision(PlaceBid, Params(Some(name), Some(50), None)))
  {
    ContainsAt(PlaceBid, "bid", 6);
    PlaceBidIsWord();
    WordIsFirstToken(PlaceBid);
    assert [Some(1), Some(50)][1..] == [Some(50)];
  }

  /** The human agent's auction pass passes dispatch the player's name. */
  lemma HumanPassFeedsDispatch(name: string, rest: seq<Option<int>>)
    ensures HumanParams(PassAuction, name, rest) == Ok(Params(Some(name), None, None))
    ensures ExecuteAction(PassAuction, Params(Some(name), None, None)) == Call(PassAuctionCall(name))
  {
    PassAuctionWords();
  }

  /** Building a house prompts for the position that dispatch passes on. */
  lemma HumanBuildFeedsDispatch(name: string, position: int, later: seq<Option<int>>)
    ensures HumanParams(BuildHouse, name, [Some(position)] + later) == Ok(Params(None, None, Some(position)))
    ensures ExecuteAction(BuildHouse, Params(None, None, Some(position))) == Call(BuildHouseCall(position))
  {
    BuildHouseWords();
  }

  /** Mortgaging prompts for the position that dispatch passes on. */
  lemma HumanMortgageFeedsDispatch(name: string, position: int, later: seq<Option<int>>)
    ensures HumanParams(Mortgage, name, [Some(position)] + later) == Ok(Params(None, None, Some(position)))
    ensures ExecuteAction(Mortgage, Params(None, None, Some(position))) == Call(MortgageCall(position))
  {
    MortgageWords();
  }

  /** Unmortgaging prompts for the position that dispatch passes on
      ("unmortgage" holds "mortgage"). */
  lemma HumanUnmortgageFeedsDispatch(name: string, position: int, later: seq<Option<int>>)
    ensures HumanParams(Unmortgage, name, [Some(position)] + later) == Ok(Params(None, None, Some(position)))
    ensures ExecuteAction(Unmortgage, Params(None, None, Some(position))) == Call(UnmortgageCall(position))
  {
    UnmortgageWords();
  }

  /** The twelve keys are distinct, so each names one engine call. */
  lemma ActionNamesDistinct()
    ensures |ActionNames| == 12
    ensures forall i, j :: 0 <= i < j < |ActionNames| ==> ActionNames[i] != ActionNames[j]
  {
  }

  /** The action counter's cap. */
  const MaxActionsPerTurn: nat := 20

  /** The result of counting one action: the new count, and whether the
      runner forced the turn to end by calling the engine's `end_turn`. */
  datatype Count = Count(actions: nat, forced: bool)

  /** Counting one action: the count grows by one, drops to 0 when the action
      was `end_turn` or the game is over, and if it then exceeds 20 the turn
      is forced to end and the count drops to 0. */
  function CountAction(count: nat, action: string, gameOver: bool): (r: Count)
    ensures r.actions <= MaxActionsPerTurn
    ensures r.forced <==> count >= MaxActionsPerTurn && action != EndTurn && !gameOver
    ensures r.actions == 0 <==> action == EndTurn || gameOver || r.forced
    ensures r.actions != 0 ==> r.actions == count + 1
  {
    var c := if action == EndTurn || gameOver then 0 else count + 1;
    if c > MaxActionsPerTurn then Count(0, true) else Count(c, false)
  }

  /** The phases in which a turn starts. */
  predicate StartsTurn(phase: string, count: nat) {
    (phase == "waiting_for_roll" || phase == "in_jail") && count == 0
  }

  /** The turn number after the loop looks at the phase. */
  function NextTurn(turn: nat, phase: string, count: nat): (r: nat)
    ensures r == turn || r == turn + 1
    ensures r == turn + 1 <==> StartsTurn(phase, count)
  {
    if StartsTurn(phase, count) then turn + 1 else turn
  }

  /** One pass of the loop counts the action, and the next pass opens a new
      turn exactly when the count was reset, by `end_turn`, the game ending or
      a forced end, and the phase is one in which a turn starts. */
  lemma TurnOpensAfterReset(turn: nat, count: nat, action: string, gameOver: bool, phase: string)
    ensures var c := CountAction(count, action, gameOver);
      NextTurn(turn, phase, c.actions) == turn + 1 <==>
        (action == EndTurn || gameOver || c.forced) && (phase == "waiting_for_roll" || phase == "in_jail")
    ensures var c := CountAction(count, action, gameOver);
      action != EndTurn && !gameOver && !c.forced ==> NextTurn(turn, phase, c.actions) == turn
  {
  }

  /** The count after a run of actions, none ending the turn, with the game
      running throughout, and whether any of them forced the turn to end. */
  function CountRun(count: nat, actions: seq<string>): Count
    decreases |actions|
  {
    if |actions| == 0 then Count(count, false)
    else
      var step := CountAction(count, actions[0], false);
      var rest := CountRun(step.actions, actions[1..]);
      Count(rest.actions, step.forced || rest.forced)
  }

  /** Actions that do not end the turn are let through and counted one by one
      while the count stays within 20. */
  lemma {:induction false} CountRunUnforced(count: nat, actions: seq<string>)
    requires count + |actions| <= MaxActionsPerTurn
    requires forall i :: 0 <= i < |actions| ==> actions[i] != EndTurn
    ensures CountRun(count, actions) == Count(count + |actions|, false)
    decreases |actions|
  {
    if |actions| > 0 {
      CountRunUnforced(count + 1, actions[1..]);
    }
  }

  /** Within one turn, a run of actions that do not end it never opens a new
      turn, whatever the phase. */
  lemma {:induction false} NoNewTurnMidTurn(turn: nat, count: nat, actions: seq<string>, phase: string)
    requires |actions| > 0 && count + |actions| <= MaxActionsPerTurn
    requires forall i :: 0 <= i < |actions| ==> actions[i] != EndTurn
    ensures NextTurn(turn, phase, CountRun(count, actions).actions) == turn
  {
    CountRunUnforced(count, actions);
  }

  /** The action that would be the 21st of a turn forces the turn to end and
      resets the count. */
  lemma {:induction false} TwentyFirstActionForcesEnd(count: nat, actions: seq<string>)
    requires |actions| > 0 && count + |actions| == MaxActionsPerTurn + 1
    requires forall i :: 0 <= i < |actions| ==> actions[i] != EndTurn
    ensures CountRun(count, actions) == Count(0, true)
    decreases |actions|
  {
    if |actions| > 1 {
      TwentyFirstActionForcesEnd(count + 1, actions[1..]);
    }
  }

  /** After a turn forced to end by its 21st action, the next pass opens a new
      turn exactly when the phase is one in which a turn starts. */
  lemma {:induction false} ForcedEndOpensTurn(turn: nat, count: nat, actions: seq<string>, phase: string)
    requires |actions| > 0 && count + |actions| == MaxActionsPerTurn + 1
    requires forall i :: 0 <= i < |actions| ==> actions[i] != EndTurn
    ensures NextTurn(turn, phase, CountRun(count, actions).actions) == turn + 1
            <==> phase == "waiting_for_roll" || phase == "in_jail"
  {
    TwentyFirstActionForcesEnd(count, actions);
  }
}

=== FILE: standings.dfy ===
/** The end-of-game reports of game_runner.py: the winner (the only player
    not bankrupt, or else the first player of greatest net worth) and the
    final standings (players not bankrupt first, then by net worth, highest
    first, ties in table order). Players are given in the order of the
    engine's player table. */
module Standings {
  import opened Outcomes

  /** What the reports read of a player: cash, number of properties held, and
      the bankrupt flag. */
  datatype Standing = Standing(name: string, money: int, properties: nat, bankrupt: bool)

  /** Each property counts 100 towards net worth, whatever it is. */
  const PropertyWorth: int := 100

  function NetWorth(p: Standing): (r: int)
    ensures r >= p.money
    ensures r == p.money <==> p.properties == 0
  {
    p.money + p.properties * PropertyWorth
  }

  /** Python's `max(players, key=NetWorth)`: the index of the first player of
      greatest net worth (a later player replaces the current best only when
      strictly greater). */
  function FirstMaxIndex(ps: seq<Standing>): (k: nat)
    requires |ps| > 0
    ensures k < |ps|
    ensures forall j :: 0 <= j < |ps| ==> NetWorth(ps[j]) <= NetWorth(ps[k])
    ensures forall j :: 0 <= j < k ==> NetWorth(ps[j]) < NetWorth(ps[k])
  {
    if |ps| == 1 then 0
    else
      var k := FirstMaxIndex(ps[..|ps| - 1]);
      assert forall j :: 0 <= j < |ps| - 1 ==> ps[..|ps| - 1][j] == ps[j];
      if NetWorth(ps[|ps| - 1]) > NetWorth(ps[k]) then |ps| - 1 else k
  }

  /** The indices of the players not bankrupt, in table order. */
  function ActiveIndices(ps: seq<Standing>): (r: seq<nat>)
    ensures forall i :: 0 <= i < |r| ==> r[i] < |ps| && !ps[r[i]].bankrupt
    ensures forall i, j :: 0 <= i < j < |r| ==> r[i] < r[j]
    ensures forall k :: 0 <= k < |ps| && !ps[k].bankrupt ==> k in r
  {
    if |ps| == 0 then []
    else
      var front := ActiveIndices(ps[..|ps| - 1]);
      assert forall j :: 0 <= j < |ps| - 1 ==> ps[..|ps| - 1][j] == ps[j];
      if ps[|ps| - 1].bankrupt then front else front + [|ps| - 1]
  }

  /** Exactly one player, `k`, is not bankrupt. */
  predicate SoleSurvivor(ps: seq<Standing>, k: nat) {
    k < |ps| && !ps[k].bankrupt && forall j :: 0 <= j < |ps| && j != k ==> ps[j].bankrupt
  }

  /** A strictly increasing sequence of indices spans at least its length. */
  lemma {:induction false} IncreasingSpread(s: seq<nat>)
    requires |s| > 0
    requires forall i, j :: 0 <= i < j < |s| ==> s[i] < s[j]
    ensures s[|s| - 1] >= s[0] + |s| - 1
  {
    if |s| > 1 {
      IncreasingSpread(s[..|s| - 1]);
      assert s[|s| - 2] < s[|s| - 1];
    }
  }

  /** Exactly one player is solvent when, and only when, exactly one index is
      listed as active, and then it is that player's. */
  lemma SoleSurvivorActive(ps: seq<Standing>)
    ensures forall k: nat :: SoleSurvivor(ps, k) ==> ActiveIndices(ps) == [k]
    ensures |ActiveIndices(ps)| == 1 ==> SoleSurvivor(ps, ActiveIndices(ps)[0])
  {
    var active := ActiveIndices(ps);
    forall k: nat | SoleSurvivor(ps, k) ensures active == [k] {
      assert k in active;
      assert forall i :: 0 <= i < |active| ==> active[i] == k;
      IncreasingSpread(active);
      assert active[|active| - 1] == active[0];
    }
    if |active| == 1 {
      forall j | 0 <= j < |ps| && j != active[0] ensures ps[j].bankrupt {
        assert !ps[j].bankrupt ==> j in active;
      }
    }
  }

  /** The winner of `run_game`, as an index into the player table: the only
      player left solvent if there is one, else the first player of greatest
      net worth, bankrupt or not. With no players at all `max` raises. */
  function Winner(ps: seq<Standing>): (r: Result<nat>)
    ensures r.Err? <==> |ps| == 0
    ensures r.Err? ==> r.error.ValueError?
    ensures forall k: nat :: SoleSurvivor(ps, k) ==> r == Ok(k)
    ensures r.Ok? && !(exists k: nat :: SoleSurvivor(ps, k)) ==> r.value == FirstMaxIndex(ps)
  {
    var active := ActiveIndices(ps);
    SoleSurvivorActive(ps);
    if |active| == 1 then Ok(active[0])
    else if |ps| == 0 then Err(ValueError("max() arg is an empty sequence"))
    else Ok(FirstMaxIndex(ps))
  }

  /** The standings sort key `(not bankrupt, net worth)`, compared
      lexicographically with `False < True`. */
  datatype Key = Key(solvent: bool, net: int)

  function KeyOf(p: Standing): Key {
    Key(!p.bankrupt, NetWorth(p))
  }

  /** `a` sorts strictly above `b` under `reverse=True`. */
  predicate Above(a: Key, b: Key) {
    (a.solvent && !b.solvent) || (a.solvent == b.solvent && a.net > b.net)
  }

  /** Highest key first: no player sorts strictly above an earlier one. */
  predicate Descending(s: seq<Standing>) {
    forall i, j :: 0 <= i < j < |s| ==> !Above(KeyOf(s[j]), KeyOf(s[i]))
  }

  /** Inserts `x` in front of the first player it sorts strictly above, so
      that it comes after every player with the same key. */
  function Insert(x: Standing, s: seq<Standing>): seq<Standing> {
    if |s| == 0 then [x]
    else if Above(KeyOf(x), KeyOf(s[0])) then [x] + s
    else [s[0]] + Insert(x, s[1..])
  }

  /** `sorted(players, key=KeyOf, reverse=True)`: a stable insertion sort
      that takes the players in table order. */
  function Sort(s: seq<Standing>): seq<Standing> {
    if |s| == 0 then [] else Insert(s[|s| - 1], Sort(s[..|s| - 1]))
  }

  /** The players with key `k`, in order. */
  function WithKey(s: seq<Standing>, k: Key): (r: seq<Standing>)
    ensures forall i :: 0 <= i < |r| ==> KeyOf(r[i]) == k
  {
    if |s| == 0 then [] else (if KeyOf(s[0]) == k then [s[0]] else []) + WithKey(s[1..], k)
  }

  /** Insertion adds `x` and loses nothing. */
  lemma {:induction false} InsertPermutes(x: Standing, s: seq<Standing>)
    ensures multiset(Insert(x, s)) == multiset(s) + multiset{x}
  {
    if |s| > 0 && !Above(KeyOf(x), KeyOf(s[0])) {
      InsertPermutes(x, s[1..]);
      assert s == [s[0]] + s[1..];
    }
  }

  /** Insertion keeps a list in standings order. */
  lemma {:induction false} InsertDescending(x: Standing, s: seq<Standing>)
    requires Descending(s)
    ensures Descending(Insert(x, s))
  {
    if |s| > 0 && !Above(KeyOf(x), KeyOf(s[0])) {
      var tail := s[1..];
      InsertDescending(x, tail);
      InsertPermutes(x, tail);
      var t := Insert(x, tail);
      forall j | 0 <= j < |t| ensures !Above(KeyOf(t[j]), KeyOf(s[0])) {
        assert t[j] in multiset(t);
        if t[j] != x {
          assert t[j] in multiset(tail);
          var m :| 0 <= m < |tail| && tail[m] == t[j];
          assert s[m + 1] == t[j];
        }
      }
      assert Insert(x, s) == [s[0]] + t;
    }
  }

  /** The standings list every player exactly once. */
  lemma {:induction false} SortPermutes(s: seq<Standing>)
    ensures multiset(Sort(s)) == multiset(s)
  {
    if |s| > 0 {
      var front := s[..|s| - 1];
      SortPermutes(front);
      InsertPermutes(s[|s| - 1], Sort(front));
      assert s == front + [s[|s| - 1]];
      assert multiset(s) == multiset(front) + multiset{s[|s| - 1]};
    }
  }

  /** The standings are in order. */
  lemma {:induction false} SortDescending(s: seq<Standing>)
    ensures Descending(Sort(s))
  {
    if |s| > 0 {
      SortDescending(s[..|s| - 1]);
      InsertDescending(s[|s| - 1], Sort(s[..|s| - 1]));
    }
  }

  lemma {:induction false} WithKeyAppend(a: seq<Standing>, b: seq<Standing>, k: Key)
    ensures WithKey(a + b, k) == WithKey(a, k) + WithKey(b, k)
  {
    if |a| > 0 {
      assert (a + b)[1..] == a[1..] + b;
      WithKeyAppend(a[1..], b, k);
    } else {
      assert a + b == b;
    }
  }

  lemma {:induction false} WithKeyNone(s: seq<Standing>, k: Key)
    requires forall i :: 0 <= i < |s| ==> KeyOf(s[i]) != k
    ensures WithKey(s, k) == []
  {
    if |s| > 0 {
      WithKeyNone(s[1..], k);
    }
  }

  /** Inserting into a sorted list puts `x` after the players with its key. */
  lemma {:induction false} InsertWithKey(x: Standing, s: seq<Standing>, k: Key)
    requires Descending(s)
    ensures WithKey(Insert(x, s), k) == WithKey(s, k) + (if KeyOf(x) == k then [x] else [])
  {
    if |s| == 0 {
    } else if Above(KeyOf(x), KeyOf(s[0])) {
      assert ([x] + s)[1..] == s;
      if KeyOf(x) == k {
        assert forall i :: 0 <= i < |s| ==> !Above(KeyOf(s[i]), KeyOf(s[0]));
        WithKeyNone(s, k);
      }
    } else {
      InsertWithKey(x, s[1..], k);
      assert ([s[0]] + Insert(x, s[1..]))[1..] == Insert(x, s[1..]);
    }
  }

  /** The sort is stable: the players sharing any one key keep their table
      order. */
  lemma {:induction false} SortStable(s: seq<Standing>, k: Key)
    ensures WithKey(Sort(s), k) == WithKey(s, k)
  {
    if |s| > 0 {
      var init, last := s[..|s| - 1], s[|s| - 1];
      SortStable(init, k);
      SortDescending(init);
      InsertWithKey(last, Sort(init), k);
      assert s == init + [last];
      WithKeyAppend(init, [last], k);
      assert WithKey([last], k) == (if KeyOf(last) == k then [last] else []) + WithKey([], k);
    }
  }

  /** The first player with key `k` heads the players with that key. */
  lemma {:induction false} WithKeyHead(s: seq<Standing>, k: Key, w: nat)
    requires w < |s| && KeyOf(s[w]) == k
    requires forall j :: 0 <= j < w ==> KeyOf(s[j]) != k
    ensures |WithKey(s, k)| > 0 && WithKey(s, k)[0] == s[w]
  {
    if w > 0 {
      WithKeyHead(s[1..], k, w - 1);
    }
  }

  /** The head of the standings is a player whom nobody sorts above. */
  lemma StandingsHead(ps: seq<Standing>) returns (i: nat)
    requires |ps| > 0
    ensures |Sort(ps)| == |ps|
    ensures i < |ps| && Sort(ps)[0] == ps[i]
    ensures forall j :: 0 <= j < |ps| ==> !Above(KeyOf(ps[j]), KeyOf(ps[i]))
  {
    var sorted := Sort(ps);
    SortDescending(ps);
    SortPermutes(ps);
    assert |sorted| == |ps| by {
      assert |multiset(sorted)| == |multiset(ps)|;
    }
    assert sorted[0] in multiset(ps);
    i :| 0 <= i < |ps| && ps[i] == sorted[0];
    forall j | 0 <= j < |ps| ensures !Above(KeyOf(ps[j]), KeyOf(ps[i])) {
      assert ps[j] in multiset(sorted);
      var at :| 0 <= at < |sorted| && sorted[at] == ps[j];
      assert at > 0 ==> !Above(KeyOf(sorted[at]), KeyOf(sorted[0]));
    }
  }

  /** A sole survivor both wins and heads the standings. */
  lemma SurvivorHeadsStandings(ps: seq<Standing>, k: nat)
    requires SoleSurvivor(ps, k)
    ensures Winner(ps) == Ok(k)
    ensures Sort(ps)[0] == ps[k]
  {
    var i := StandingsHead(ps);
    assert !Above(KeyOf(ps[k]), KeyOf(ps[i]));
  }

  /** Under uniform flags any two players agree on bankruptcy. */
  lemma SameFlag(ps: seq<Standing>, a: nat, b: nat)
    requires a < |ps| && b < |ps|
    requires forall i, j :: 0 <= i < j < |ps| ==> ps[i].bankrupt == ps[j].bankrupt
    ensures ps[a].bankrupt == ps[b].bankrupt
  {
    if a < b {
    } else if b < a {
    }
  }

  /** Under uniform flags the first player of greatest net worth heads the
      standings: every player's key then differs only in net worth, and the
      stable sort keeps the first of the richest in front. */
  lemma RichestHeadsStandings(ps: seq<Standing>)
    requires |ps| > 0
    requires forall i, j :: 0 <= i < j < |ps| ==> ps[i].bankrupt == ps[j].bankrupt
    ensures Sort(ps)[0] == ps[FirstMaxIndex(ps)]
  {
    var i := StandingsHead(ps);
    var w := FirstMaxIndex(ps);
    var k := KeyOf(ps[w]);
    SameFlag(ps, i, w);
    assert KeyOf(ps[i]) == k by {
      assert !Above(KeyOf(ps[w]), KeyOf(ps[i]));
      assert NetWorth(ps[i]) <= NetWorth(ps[w]);
    }
    forall j | 0 <= j < w ensures KeyOf(ps[j]) != k {
      assert NetWorth(ps[j]) < NetWorth(ps[w]);
    }
    WithKeyHead(ps, k, w);
    WithKeyHead(Sort(ps), k, 0);
    SortStable(ps, k);
  }

  /** When every player is bankrupt, or none is, the winner heads the final
      standings. */
  lemma WinnerHeadsStandings(ps: seq<Standing>)
    requires |ps| > 0
    requires forall i, j :: 0 <= i < j < |ps| ==> ps[i].bankrupt == ps[j].bankrupt
    ensures Winner(ps).Ok? && Sort(ps)[0] == ps[Winner(ps).value]
  {
    if exists k: nat :: SoleSurvivor(ps, k) {
      var k: nat :| SoleSurvivor(ps, k);
      SurvivorHeadsStandings(ps, k);
    } else {
      RichestHeadsStandings(ps);
    }
  }

  /** Three players, the last bankrupt but the richest. */
  const BankruptLeader: seq<Standing> :=
    [Standing("A", 50, 0, false), Standing("B", 40, 0, false), Standing("C", 900, 0, true)]

  /** With mixed bankrupt flags and two survivors, the winner by net worth
      can be a bankrupt player. */
  lemma BankruptWinnerExample()
    ensures Winner(BankruptLeader) == Ok(2) && BankruptLeader[2].bankrupt
  {
    var ps := BankruptLeader;
    assert ps[..1][..0] == [] && ps[..2][..1] == ps[..1] && ps[..3] == ps;
    assert ActiveIndices(ps[..1]) == [0];
    assert ActiveIndices(ps[..2]) == [0, 1];
    assert FirstMaxIndex(ps[..1]) == 0;
    assert FirstMaxIndex(ps[..2]) == 0;
  }

  /** The standings of the same table list that bankrupt winner last, below
      the two solvent players. */
  lemma BankruptLeaderStandings()
    ensures Sort(BankruptLeader) == BankruptLeader
  {
    var ps := BankruptLeader;
    assert ps[..1][..0] == [] && ps[..2][..1] == ps[..1] && ps[..3] == ps;
    assert Sort(ps[..1]) == [ps[0]];
    assert Insert(ps[1], [ps[0]]) == [ps[0]] + Insert(ps[1], []);
    assert Sort(ps[..2]) == [ps[0], ps[1]];
    assert Insert(ps[2], [ps[0], ps[1]]) == [ps[0]] + Insert(ps[2], [ps[1]]);
    assert Insert(ps[2], [ps[1]]) == [ps[1]] + Insert(ps[2], []);
  }
}

=== FILE: text.dfy ===
/** The few Python `str` operations the client code relies on: `isspace`,
    `strip`, `in`, `split(sep)`, `split()` and `replace`, defined on `seq<char>`. */
module Text {
  import opened Outcomes

  /** Python's `str.isspace()` for a single character. */
  predicate IsSpace(c: char) {
    || c == ' ' || c == '\t' || c == '\n' || c == '\r' || c == '\U{0B}' || c == '\U{0C}'
    || c == '\U{1C}' || c == '\U{1D}' || c == '\U{1E}' || c == '\U{1F}'
    || c == '\U{85}' || c == '\U{A0}' || c == '\U{1680}'
    || ('\U{2000}' <= c <= '\U{200A}')
    || c == '\U{2028}' || c == '\U{2029}' || c == '\U{202F}' || c == '\U{205F}' || c == '\U{3000}'
  }

  predicate AllSpace(s: string) {
    forall i :: 0 <= i < |s| ==> IsSpace(s[i])
  }

  /** Number of whitespace characters at the front of `s`. */
  function LeadCount(s: string): (n: nat)
    ensures n <= |s|
    ensures forall i :: 0 <= i < n ==> IsSpace(s[i])
    ensures n < |s| ==> !IsSpace(s[n])
  {
    if |s| > 0 && IsSpace(s[0]) then 1 + LeadCount(s[1..]) else 0
  }

  /** Number of whitespace characters at the back of `s`. */
  function TrailCount(s: string): (n: nat)
    ensures n <= |s|
    ensures forall i :: |s| - n <= i < |s| ==> IsSpace(s[i])
    ensures n < |s| ==> !IsSpace(s[|s| - n - 1])
  {
    if |s| > 0 && IsSpace(s[|s| - 1]) then 1 + TrailCount(s[..|s| - 1]) else 0
  }

  /** Where the text `strip` keeps ends. */
  function StripEnd(s: string): (e: nat)
    ensures LeadCount(s) <= e <= |s|
    ensures forall i :: e <= i < |s| ==> IsSpace(s[i])
    ensures LeadCount(s) < e ==> !IsSpace(s[e - 1])
  {
    if LeadCount(s) == |s| then |s| else |s| - TrailCount(s)
  }

  /** Python's `s.strip()`: drops leading and trailing whitespace. */
  function Strip(s: string): (r: string)
    ensures |r| > 0 ==> !IsSpace(r[0]) && !IsSpace(r[|r| - 1])
    ensures forall c :: c in r ==> c in s
    ensures AllSpace(s) <==> r == []
  {
    s[LeadCount(s)..StripEnd(s)]
  }

  /** `Strip` removes exactly the surrounding whitespace: a core that neither
      starts nor ends with whitespace is recovered from any padding. */
  lemma {:induction false} StripPadded(left: string, core: string, right: string)
    requires AllSpace(left) && AllSpace(right)
    requires |core| > 0 ==> !IsSpace(core[0]) && !IsSpace(core[|core| - 1])
    ensures Strip(left + core + right) == core
  {
    var s := left + core + right;
    if |core| == 0 {
      assert AllSpace(s) by {
        forall i | 0 <= i < |s| ensures IsSpace(s[i]) {
          if i < |left| { assert s[i] == left[i]; } else { assert s[i] == right[i - |left|]; }
        }
      }
    } else {
      LeadOfPadded(left, core, right);
      TrailOfPadded(left, core, right);
      assert s[|left|..|left| + |core|] == core;
    }
  }

  /** A slice that starts inside `x` and ends inside `z` keeps all of `y`. */
  lemma SliceAround(x: string, y: string, z: string, a: nat, e: nat)
    requires a <= |x| && |x| + |y| <= e <= |x| + |y| + |z|
    ensures (x + y + z)[a..e] == x[a..] + y + z[..e - |x| - |y|]
  {
    var s := x + y + z;
    assert s[a..e] == s[a..|x|] + s[|x|..|x| + |y|] + s[|x| + |y|..e];
    assert s[a..|x|] == x[a..];
    assert s[|x|..|x| + |y|] == y;
    assert s[|x| + |y|..e] == z[..e - |x| - |y|];
  }

  /** Padding before a core that starts with a non-space is exactly what
      `LeadCount` counts. */
  lemma LeadOfPadded(left: string, core: string, right: string)
    requires AllSpace(left) && |core| > 0 && !IsSpace(core[0])
    ensures LeadCount(left + core + right) == |left|
  {
    var s := left + core + right;
    assert s[|left|] == core[0];
    assert forall i :: 0 <= i < |left| ==> s[i] == left[i];
  }

  /** Padding after a core that ends with a non-space is exactly what
      `TrailCount` counts. */
  lemma TrailOfPadded(left: string, core: string, right: string)
    requires AllSpace(right) && |core| > 0 && !IsSpace(core[|core| - 1])
    ensures TrailCount(left + core + right) == |right|
  {
    var s := left + core + right;
    assert s[|left| + |core| - 1] == core[|core| - 1];
    assert forall i :: 0 <= i < |right| ==> s[|left| + |core| + i] == right[i];
  }

  /** `pat` occurs in `s` starting at index `i`. */
  predicate OccursAt(s: string, pat: string, i: nat) {
    i + |pat| <= |s| && s[i..i + |pat|] == pat
  }

  function FindFrom(s: string, pat: string, k: nat): (r: Option<nat>)
    requires k <= |s|
    ensures r.Some? ==> k <= r.value && OccursAt(s, pat, r.value)
    ensures r.Some? ==> forall i :: k <= i < r.value ==> !OccursAt(s, pat, i)
    ensures r.None? ==> forall i :: k <= i <= |s| ==> !OccursAt(s, pat, i)
    decreases |s| - k
  {
    if OccursAt(s, pat, k) then Some(k)
    else if k == |s| then None
    else FindFrom(s, pat, k + 1)
  }

  /** Index of the first occurrence of `pat` in `s`: the search behind Python's
      `pat in s` and `s.split(pat)`. */
  function Find(s: string, pat: string): (r: Option<nat>)
    ensures r.Some? ==> OccursAt(s, pat, r.value)
    ensures r.Some? ==> forall i :: 0 <= i < r.value ==> !OccursAt(s, pat, i)
    ensures r.None? ==> forall i :: 0 <= i <= |s| ==> !OccursAt(s, pat, i)
  {
    FindFrom(s, pat, 0)
  }

  /** Python's `pat in s`. */
  predicate Contains(s: string, pat: string) {
    Find(s, pat).Some?
  }

  /** Stripping twice is stripping once. */
  lemma StripIdempotent(s: string)
    ensures Strip(Strip(s)) == Strip(s)
  {
    StripPadded([], Strip(s), []);
    assert [] + Strip(s) + [] == Strip(s);
  }

  /** An occurrence inside a slice is an occurrence in the whole. */
  lemma OccursInSlice(s: string, a: nat, b: nat, pat: string, i: nat)
    requires a <= b <= |s|
    requires OccursAt(s[a..b], pat, i)
    ensures OccursAt(s, pat, a + i)
  {
    assert i + |pat| <= b - a;
    var x, y := s[a..b][i..i + |pat|], s[a + i..a + i + |pat|];
    assert forall k :: 0 <= k < |pat| ==> x[k] == y[k];
    assert x == y;
  }

  /** A pattern that occurs at `p` and nowhere earlier is found at `p`. */
  lemma FindExact(s: string, pat: string, p: nat)
    requires OccursAt(s, pat, p)
    requires forall i :: 0 <= i < p ==> !OccursAt(s, pat, i)
    ensures Find(s, pat) == Some(p)
  {
  }

  /** No occurrence of `pat` starts at a character other than its first. */
  lemma HeadMismatch(s: string, pat: string, i: nat)
    requires |pat| > 0 && i < |s| && s[i] != pat[0]
    ensures !OccursAt(s, pat, i)
  {
    if i + |pat| <= |s| {
      assert s[i..i + |pat|][0] == s[i];
    }
  }

  /** Python's `s.split(pat)[0]`: everything before the first `pat`. */
  function Before(s: string, pat: string): (r: string)
    ensures |r| <= |s| && r == s[..|r|]
    ensures !Contains(s, pat) ==> r == s
    ensures Contains(s, pat) ==> OccursAt(s, pat, |r|)
    ensures forall i :: 0 <= i < |r| ==> !OccursAt(s, pat, i)
  {
    match Find(s, pat)
    case Some(i) => s[..i]
    case None => s
  }

  /** What comes before the first `pat` holds no `pat`. */
  lemma BeforeLacksPattern(s: string, pat: string)
    requires |pat| > 0
    ensures !Contains(Before(s, pat), pat)
  {
    var r := Before(s, pat);
    if Contains(r, pat) {
      var i := Find(r, pat).value;
      assert r == s[0..|r|];
      OccursInSlice(s, 0, |r|, pat, i);
    }
  }

  /** In a text whose prefix `p` lacks the first character of `pat`, the first
      `pat` is the one right after `p`. */
  lemma FindAfterPrefix(p: string, pat: string, x: string)
    requires |pat| > 0 && pat[0] !in p
    ensures Find(p + pat + x, pat) == Some(|p|)
  {
    var s := p + pat + x;
    assert s[|p|..|p| + |pat|] == pat;
    forall i | 0 <= i < |p| ensures !OccursAt(s, pat, i) {
      assert s[i] == p[i];
      HeadMismatch(s, pat, i);
    }
    FindExact(s, pat, |p|);
  }

  /** In such a text, what comes before the first `pat` is `p`. */
  lemma BeforeAfterPrefix(p: string, pat: string, x: string)
    requires |pat| > 0 && pat[0] !in p
    ensures Before(p + pat + x, pat) == p
  {
    FindAfterPrefix(p, pat, x);
    assert (p + pat + x)[..|p|] == p;
  }

  /** A text that neither starts nor ends with whitespace is its own strip. */
  lemma StripUnpadded(s: string)
    requires |s| > 0 ==> !IsSpace(s[0]) && !IsSpace(s[|s| - 1])
    ensures Strip(s) == s
  {
    StripPadded([], s, []);
    assert [] + s + [] == s;
  }

  /** A one-character pattern occurs exactly when its character does. */
  lemma ContainsChar(s: string, c: char)
    ensures Contains(s, [c]) <==> c in s
  {
    if c in s {
      var i :| 0 <= i < |s| && s[i] == c;
      assert s[i..i + 1] == [c];
      assert OccursAt(s, [c], i);
    }
    if Contains(s, [c]) {
      var i := Find(s, [c]).value;
      assert s[i..i + 1][0] == s[i];
    }
  }

  /** A pattern whose characters appear in order from index `i` is in the
      text. */
  lemma ContainsAt(s: string, pat: string, i: nat)
    requires i + |pat| <= |s|
    requires forall k :: 0 <= k < |pat| ==> s[i + k] == pat[k]
    ensures Contains(s, pat)
  {
    assert s[i..i + |pat|] == pat;
    assert OccursAt(s, pat, i);
  }

  /** A pattern whose first two characters never appear side by side in `s`
      is not in `s`. */
  lemma PairAbsent(s: string, pat: string)
    requires |pat| >= 2
    requires forall i :: 0 <= i < |s| - 1 ==> s[i] != pat[0] || s[i + 1] != pat[1]
    ensures !Contains(s, pat)
  {
    forall i | 0 <= i <= |s| ensures !OccursAt(s, pat, i) {
      if i + |pat| <= |s| {
        assert s[i..i + |pat|][0] == s[i] && s[i..i + |pat|][1] == s[i + 1];
      }
    }
  }

  /** Python's `s.split(pat)[1]`: the text between the first occurrence of
      `pat` and the next one (or the end of `s`). */
  function Second(s: string, pat: string): (r: string)
    requires Contains(s, pat)
    ensures |pat| > 0 ==> !Contains(r, pat)
    ensures Find(s, pat).value + |pat| + |r| <= |s|
    ensures r == s[Find(s, pat).value + |pat|..Find(s, pat).value + |pat| + |r|]
  {
    var tail := s[Find(s, pat).value + |pat|..];
    if |pat| > 0 then BeforeLacksPattern(tail, pat); Before(tail, pat)
    else Before(tail, pat)
  }

  /** Python's `s.replace(from, to)` for one-character `from` and `to`. */
  function ReplaceChar(s: string, from: char, to: char): (r: string)
    ensures |r| == |s|
    ensures forall i :: 0 <= i < |s| ==> r[i] == (if s[i] == from then to else s[i])
    ensures from != to ==> from !in r
    ensures forall c :: c in r ==> c == to || c in s
  {
    seq(|s|, i requires 0 <= i < |s| => if s[i] == from then to else s[i])
  }

  /** Replacing a character that does not occur changes nothing. */
  lemma ReplaceAbsent(s: string, from: char, to: char)
    requires from !in s
    ensures ReplaceChar(s, from, to) == s
  {
  }

  /** Python's `s.split()[0]`: the first maximal run of non-whitespace, or
      `None` where Python raises `IndexError` (empty or all-whitespace `s`). */
  function FirstToken(s: string): (r: Option<string>)
    ensures r.None? <==> AllSpace(s)
    ensures r.Some? ==> |r.value| > 0 && forall i :: 0 <= i < |r.value| ==> !IsSpace(r.value[i])
    ensures r.Some? ==> OccursAt(s, r.value, LeadCount(s))
    ensures r.Some? ==> (LeadCount(s) + |r.value| == |s| || IsSpace(s[LeadCount(s) + |r.value|]))
  {
    var a := LeadCount(s);
    if a == |s| then None else Some(s[a..a + TokenLength(s[a..])])
  }

  /** Number of non-whitespace characters at the front of `s`. */
  function TokenLength(s: string): (n: nat)
    ensures n <= |s|
    ensures forall i :: 0 <= i < n ==> !IsSpace(s[i])
    ensures n < |s| ==> IsSpace(s[n])
  {
    if |s| > 0 && !IsSpace(s[0]) then 1 + TokenLength(s[1..]) else 0
  }

  /** A word without whitespace is its own first token. */
  lemma {:induction false} WordIsFirstToken(s: string)
    requires |s| > 0 && forall i :: 0 <= i < |s| ==> !IsSpace(s[i])
    ensures FirstToken(s) == Some(s)
  {
    WordLength(s);
    assert s[0..|s|] == s;
  }

  /** Every character of a word without whitespace counts towards its token
      length. */
  lemma {:induction false} WordLength(s: string)
    requires forall i :: 0 <= i < |s| ==> !IsSpace(s[i])
    ensures TokenLength(s) == |s|
  {
    if |s| > 0 {
      WordLength(s[1..]);
    }
  }
}

=== FILE: tiles.dfy ===
/** The street tile of src/Tiles.py (`Land`): an ownership flag and owner,
    house and hotel counters, and a rent value derived from them.

    The source builds `building_details` as a one-element tuple by a stray
    trailing comma, so its dictionary lookups would fail; this model gives the
    record the dictionary shape evidently intended. */
module Tiles {
  import opened Outcomes

  const MaxHouses: int := 4
  const DefaultHouseBuildPrice: int := 50
  const DefaultTileColor: string := "#0003A6"

  /** `building_details`. `pricePerHouse` is the `price_per_house` key that
      `update_rent_value` reads and no code ever stores. */
  datatype Buildings = Buildings(
    owner: string,
    houses: int,
    houseRent: int,
    hotels: int,
    hotelRent: int,
    pricePerHouse: Option<int>)

  datatype Land = Land(
    id: int,
    position: int,
    displayName: string,
    landPrice: int,
    buyable: bool,
    tileType: string,
    hasBuildings: bool,
    hasImage: bool,
    hasOwner: bool,
    houseBuildPrice: int,
    owner: string,
    rentValue: int,
    tileColor: string,
    colorGroup: string,
    buildings: Buildings)

  /** The status dictionary some updates return. */
  datatype Report = Report(status: bool, message: string)

  const EmptyBuildings: Buildings := Buildings("", 0, 0, 0, 0, None)

  /** A new street sits at the board position equal to its id, is for sale,
      unowned, unbuilt, rent-free, and costs 50 per house. */
  function NewLand(id: int, displayName: string, landPrice: int, colorGroup: string): (l: Land)
    ensures l.id == id && l.position == id
    ensures l.buyable && !l.hasOwner && l.owner == "" && !l.hasBuildings
    ensures l.rentValue == 0 && l.houseBuildPrice == DefaultHouseBuildPrice
    ensures HouseCount(l) == 0 && l.buildings.hotels == 0
    ensures l.displayName == displayName && l.landPrice == landPrice && l.colorGroup == colorGroup
  {
    Land(id, id, displayName, landPrice, true, "land", false, false, false,
         DefaultHouseBuildPrice, "", 0, DefaultTileColor, colorGroup, EmptyBuildings)
  }

  /** `update_owner`: marks the tile owned by `owner` and reports success. The
      owner kept inside `building_details` is not touched. */
  function UpdateOwner(l: Land, owner: string): (r: (Land, Report))
    ensures r.0.hasOwner && r.0.owner == owner && r.1.status
    ensures r.0 == l.(hasOwner := true, owner := owner)
  {
    (l.(hasOwner := true, owner := owner),
     Report(true, "The owner of this property has been updated to " + owner))
  }

  /** Setting the same owner twice is the same as setting it once. */
  lemma UpdateOwnerIdempotent(l: Land, owner: string)
    ensures UpdateOwner(UpdateOwner(l, owner).0, owner) == UpdateOwner(l, owner)
  {
  }

  /** `get_house_count`. */
  function HouseCount(l: Land): (r: int)
    ensures l.buildings.(houses := r) == l.buildings
  {
    l.buildings.houses
  }

  /** `update_hotels`: one more hotel, nothing else changes. */
  function UpdateHotels(l: Land): (r: Land)
    ensures r.buildings.hotels == l.buildings.hotels + 1
    ensures r == l.(buildings := l.buildings.(hotels := r.buildings.hotels))
  {
    l.(buildings := l.buildings.(hotels := l.buildings.hotels + 1))
  }

  /** `update_houses`: while the count is at most 4 it grows by `n` with no
      cap (4 + 1 gives 5) and success is reported; above 4 the houses stay
      put, a hotel is added instead, and nothing is returned. */
  function UpdateHouses(l: Land, n: int): (r: (Land, Option<Report>))
    ensures HouseCount(l) <= MaxHouses ==> HouseCount(r.0) == HouseCount(l) + n
    ensures HouseCount(l) <= MaxHouses ==> r.0.buildings.hotels == l.buildings.hotels
    ensures HouseCount(l) <= MaxHouses <==> r.1.Some?
    ensures r.1.Some? ==> r.1.value.status
    ensures HouseCount(l) > MaxHouses ==> HouseCount(r.0) == HouseCount(l)
    ensures HouseCount(l) > MaxHouses ==> r.0.buildings.hotels == l.buildings.hotels + 1
    ensures r.0 == l.(buildings := r.0.buildings)
    ensures r.0.buildings == l.buildings.(houses := HouseCount(r.0), hotels := r.0.buildings.hotels)
  {
    var current := HouseCount(l);
    if current <= MaxHouses then
      (l.(buildings := l.buildings.(houses := current + n)),
       Some(Report(true, "successfully updated the house count")))
    else
      (UpdateHotels(l), None)
  }

  /** `k` successive single-house updates. */
  function BuildRepeatedly(l: Land, k: nat): Land
    decreases k
  {
    if k == 0 then l else BuildRepeatedly(UpdateHouses(l, 1).0, k - 1)
  }

  /** From at most 4 houses, repeated single-house updates climb to 5 houses
      and then turn every further call into one more hotel. */
  lemma {:induction false} RepeatedHouseUpdates(l: Land, k: nat)
    requires HouseCount(l) <= MaxHouses
    ensures HouseCount(BuildRepeatedly(l, k)) == if HouseCount(l) + k <= 5 then HouseCount(l) + k else 5
    ensures BuildRepeatedly(l, k).buildings.hotels
         == l.buildings.hotels + (if HouseCount(l) + k <= 5 then 0 else HouseCount(l) + k - 5)
    decreases k
  {
    if k > 0 {
      var l' := UpdateHouses(l, 1).0;
      if HouseCount(l) < MaxHouses {
        RepeatedHouseUpdates(l', k - 1);
      } else {
        AboveFourBuildsHotels(l', k - 1);
      }
    }
  }

  /** Above 4 houses every single-house update adds a hotel instead. */
  lemma {:induction false} AboveFourBuildsHotels(l: Land, k: nat)
    requires HouseCount(l) > MaxHouses
    ensures HouseCount(BuildRepeatedly(l, k)) == HouseCount(l)
    ensures BuildRepeatedly(l, k).buildings.hotels == l.buildings.hotels + k
    decreases k
  {
    if k > 0 {
      AboveFourBuildsHotels(UpdateHouses(l, 1).0, k - 1);
    }
  }

  /** `update_rent_value`: rent becomes houses times the price per house. The
      `price_per_house` key is never stored, so as written the lookup raises
      `KeyError`. */
  function UpdateRentValue(l: Land): (r: Result<Land>)
    ensures l.buildings.pricePerHouse.None? <==> r == Err(KeyError("price_per_house"))
    ensures r.Ok? ==> r.value.rentValue == HouseCount(l) * l.buildings.pricePerHouse.value
    ensures r.Ok? ==> r.value == l.(rentValue := r.value.rentValue)
  {
    match l.buildings.pricePerHouse
    case None => Err(KeyError("price_per_house"))
    case Some(price) => Ok(l.(rentValue := HouseCount(l) * price))
  }

  /** On every street the constructor can build the rent update raises. */
  lemma RentUpdateRaisesOnNewLand(id: int, displayName: string, landPrice: int, colorGroup: string)
    ensures UpdateRentValue(NewLand(id, displayName, landPrice, colorGroup)).Err?
  {
  }

  /** The dictionary `get_tile_properties` returns. */
  datatype TileProperties = TileProperties(
    id: int,
    position: int,
    displayName: string,
    landPrice: int,
    buyable: bool,
    tileType: string,
    hasBuildings: bool,
    buildingDetails: Buildings,
    hasImage: bool,
    hasOwner: bool,
    owner: string,
    rentValue: int,
    tileColor: string,
    houseBuildPrice: int)

  function GetTileProperties(l: Land): (r: TileProperties)
    ensures LandFromProperties(r, l.colorGroup) == l
  {
    TileProperties(l.id, l.position, l.displayName, l.landPrice, l.buyable, l.tileType,
                   l.hasBuildings, l.buildings, l.hasImage, l.hasOwner, l.owner,
                   l.rentValue, l.tileColor, l.houseBuildPrice)
  }

  function LandFromProperties(t: TileProperties, colorGroup: string): Land {
    Land(t.id, t.position, t.displayName, t.landPrice, t.buyable, t.tileType, t.hasBuildings,
         t.hasImage, t.hasOwner, t.houseBuildPrice, t.owner, t.rentValue, t.tileColor,
         colorGroup, t.buildingDetails)
  }

  /** The properties report carries every stored field except the colour
      group: the tile is rebuilt from it and the group alone, and it shows
      an owner set by `update_owner`. */
  lemma TilePropertiesRoundTrip(l: Land, owner: string)
    ensures LandFromProperties(GetTileProperties(l), l.colorGroup) == l
    ensures GetTileProperties(UpdateOwner(l, owner).0).owner == owner
    ensures GetTileProperties(UpdateOwner(l, owner).0).hasOwner
  {
  }
}
